=== FILE: README.md ===
# scontrol, the cluster administration console, in Dafny

This project models the decision logic of `scontrol`, the interactive
administration console of the SLURM resource manager. The model follows
`src/scontrol/scontrol.c` and covers these parts:

- **The start-up flags** (`main`). Arguments starting `-h` print the usage text. `-q`/`quiet` and `-v`/`verbose` set the quiet tri-state. Any other argument is a word of a command, which is run once.
- **The read loop** (`main`). It reads, tokenizes and dispatches lines until a line has too many words, an exit keyword is given, or a command ends the process.
- **The line tokenizer** (`_get_command`). It splits a line in place into at most 128 whitespace-separated words. The line `!!` re-tokenizes the stored previous line.
- **The dispatcher** (`_process_command`). Keywords are matched case-insensitively, some on fixed-length prefixes. There are also the `show` topics and the argument-count complaints.
- **The per-kind snapshot caches** (config, jobs, nodes, partitions, job steps). Each makes a delta query against the cached update time, and the step cache is also keyed by its job/step filter.
- **The printers**:
  - first match or every record;
  - "not found" versus "none in the system";
  - the rotating node lookup that resumes at the last node found;
  - host-list node display.
- **The update compiler** (`_update_it`, `_update_job`, `_update_node`, `_update_part`):
  - the first anchor token (`NodeName=`, `PartitionName=`, `JobId=`) selects a grammar;
  - every token is read against that grammar's ordered field table;
  - field values are coerced as the C code does (`strtol` with truncation to 32 or 16 bits, YES/NO, INFINITE, fixed choices, node state names);
  - one refused token aborts the whole request before anything is sent.

The cluster manager is an environment of answers, one per remote call (`Console.Env`). A fresh environment is chosen for every command, so the manager's state may change between commands. Everything the console asks of the manager is recorded as a `Console.Request`. Output is a sequence of abstract `Output.Event`s rather than text.

Modules, one per file:

| file | module | contents |
|---|---|---|
| `ctext.dfy` | `CText` | the C library semantics used: `strncasecmp`, `strcasecmp`, `strcmp` up to NUL, `strtol` with saturation and end pointer, integer casts, and decimal rendering as strtol's partner |
| `tokenizer.dfy` | `Tokenizer` | the in-place scan, a reference `Words`, and `!!` replay |
| `output.dfy` | `Output` | verbosity, entity kinds, events |
| `snapshots.dfy` | `Snapshots` | the cache refresh, the step cache, and the step cache's memory as written |
| `display.dfy` | `Display` | records, first-match printing, the rotating node lookup and node lists |
| `directives.dfy` | `Directives` | grammars, coercions, token reading, compilation, and the update outcome |
| `console.dfy` | `Console` | the session, the commands, start-up, the loop |

## Model

| member | source | states |
|---|---|---|
| CText.StrToL | src/scontrol/scontrol.c:668-670 | strtol's value always lies in the range of a C long, and the end pointer is a suffix of the input |
| CText.DecimalRoundTrip | src/scontrol/scontrol.c:947-950 | on a 64-bit long, reading back the decimal numeral of any n up to LONG_MAX gives n, with the end pointer at the non-digit text that follows |
| CText.PrefixMatchMeaning | src/scontrol/scontrol.c:743 | strncasecmp(a, key, n) == 0 holds exactly when a is at least n long and its first n characters equal the key's up to case |
| CText.CaseEqMeaning | src/scontrol/scontrol.c:752-753 | strcasecmp(a, b) == 0 holds exactly when a and b are equal after lower-casing, hence equally long |
| CText.CString | src/scontrol/scontrol.c:114-121 | the string strcmp sees is the NUL-free prefix of the buffer up to its first NUL |
| Tokenizer.GetCommand | src/scontrol/scontrol.c:168-222 | reading a line returns 0 or E2BIG and never more than 128 words |
| Tokenizer.LineYieldsWords | src/scontrol/scontrol.c:201-221 | a line with at most 128 words yields exactly its maximal non-blank runs, in order, with status 0; with more it yields E2BIG and the first 128; the stored buffer is the line with some blanks overwritten by NUL |
| Tokenizer.RepeatReplaysLastLine | src/scontrol/scontrol.c:186-220 | `!!` after any other line yields the same status and words as that line did, despite the NULs written into the stored buffer, and keeps that buffer stored unchanged |
| Tokenizer.RepeatWithoutHistory | src/scontrol/scontrol.c:186-189 | `!!` before any line has been stored yields no words |
| Tokenizer.WordsAreSolid | src/scontrol/scontrol.c:201-219 | every word is non-empty and holds neither white space nor NUL |
| Tokenizer.WordsOfJoin | src/scontrol/scontrol.c:201-219 | tokenizing undoes joining: solid words joined by blanks split back into exactly those words |
| Snapshots.Refresh | src/scontrol/scontrol.c:418-438 | fresh data replaces the cache; "no change" succeeds and keeps the cached snapshot only when one exists; any other failure leaves the cache unchanged and fails |
| Snapshots.CacheHoldsLastFresh | src/scontrol/scontrol.c:418-438 | after any series of refreshes the cache holds the last snapshot the manager sent, or the original cache if it sent none |
| Snapshots.ParseStepFilterOfIds | src/scontrol/scontrol.c:667-671 | the argument "a.b" names job a, step b, and "a" alone names job a, step 0 |
| Snapshots.RefreshSteps | src/scontrol/scontrol.c:673-704 | the corrected step refresh: a delta query is reused only for the remembered filter; a failure never succeeds and the filter is remembered only on success; the cached snapshot is reused exactly on "no change"; a failed switch to another filter leaves nothing cached |
| Snapshots.FailedSwitchForcesFullQuery | src/scontrol/scontrol.c:688-694 | after a failed query for a new filter, the next step query of any filter is a full query from time 0 |
| Snapshots.RefreshStepsAsWritten | src/scontrol/scontrol.c:688-702 | the step refresh as written: it touches a released snapshot exactly when its pointer still points at one; a failed switch to another filter releases the snapshot yet keeps pointing at it under the old filter; "no change" for that filter then serves the released snapshot as live; fresh data is always taken |
| Snapshots.StepCacheUseAfterRelease | src/scontrol/scontrol.c:688-702 | as written, success for 1.0, failure for 2.0, then "no change" for 1.0 reads and shows the released snapshot; the corrected cache makes that third query a full one |
| Snapshots.CorrectionOnlyDropsReleased | src/scontrol/scontrol.c:673-704 | from any state without a released snapshot, the written and corrected refreshes agree on success, on the filter and on the live cache |
| Display.ShowJobs | src/scontrol/scontrol.c:448-466 | without an id every job is shown; with one, at most the first job whose id equals the argument as a 32-bit number; when none matches, "not found" for a non-empty table and "none in the system" for an empty one, both withheld when quiet |
| Display.ShowPartitions | src/scontrol/scontrol.c:631-647 | the same first-match and empty-versus-missing rules for partitions, on exact, case-sensitive names |
| Display.ShowSteps | src/scontrol/scontrol.c:714-724 | every step the filtered query returned is shown; with none only "none in the system" can be reported |
| Display.ProbesArePermutation | src/scontrol/scontrol.c:485-487 | the probes (j + cursor) mod n for j in [0, n) visit every index exactly once |
| Display.NodeLookup | src/scontrol/scontrol.c:485-502 | the rotating lookup finds a node of the name exactly when the table has one, and it is the first such node going round from the cursor |
| Display.FindNode | src/scontrol/scontrol.c:485-502 | the loop as written agrees with the rotating lookup, finding a node of that name exactly when one exists |
| Display.ShowNode | src/scontrol/scontrol.c:479-510 | a successful named lookup shows one node and moves the cursor to it; a failed one reports not found or none in the system and leaves the cursor; no name shows every node |
| Display.RepeatedLookupHitsAtCursor | src/scontrol/scontrol.c:483-501 | repeating a successful lookup finds the same node at its first probe |
| Display.NodeNamesShowInOrder | src/scontrol/scontrol.c:558-569 | with unique node names, a host list whose names are all known shows each name's node, in list order, wherever the cursor starts |
| Display.ShowNodeList | src/scontrol/scontrol.c:558-582 | no list shows every node; an unexpandable list is reported (withheld when quiet) and moves no cursor; an expanded list is looked up name by name |
| Directives.Coerce | src/scontrol/scontrol.c:1093-1160 | numeric fields never refuse: any text other than the words YES/NO or INFINITE is read by strtol and truncated to 32 or 16 bits; a choice refuses exactly the text no name matches, hinting the advertised names, and otherwise yields a matching name's position; a node state refuses exactly the text matching no state before END |
| Directives.StateFrom | src/scontrol/scontrol.c:1039-1061 | the node state lookup accepts the first state before END that equals the text up to case, and otherwise refuses, listing the valid states |
| Directives.NumberRoundTrip | src/scontrol/scontrol.c:947-978 | on a 64-bit long, a 32-bit number written in decimal reads back as itself in every numeric field, including INFINITE-capable and 16-bit ones when it fits |
| Directives.WordsInAnyCase | src/scontrol/scontrol.c:1093-1103 | any text spelling yes, no or infinite in any mix of case reads as 1, 0 or 0xFFFFFFFF; every other text is read as a number |
| Directives.ChoiceRoundTrip | src/scontrol/scontrol.c:1108-1160 | writing a choice's k-th name reads back as k |
| Directives.StateRoundTrip | src/scontrol/scontrol.c:1041-1058 | writing the k-th settable node state name reads back as state k |
| Directives.AdvertisedChoicesAreAccepted | src/scontrol/scontrol.c:1108-1160 | every partition choice advertises exactly the values it accepts |
| Directives.SettingRoundTrip | src/scontrol/scontrol.c:946-1011 | in a well-formed grammar with distinct keys, "Key=text" is read by that key's field alone and sets it to the coerced text |
| Directives.JobGrammarIsSound | src/scontrol/scontrol.c:946-1006 | the job keys are well formed and distinct up to case |
| Directives.PartGrammarIsSound | src/scontrol/scontrol.c:1090-1165 | the partition keys, RootOnly matched on its whole key, are well formed and distinct up to case |
| Directives.NodeGrammarIsSound | src/scontrol/scontrol.c:1036-1061 | the node keys are well formed and distinct up to case |
| Directives.WellFormedReadsWithinToken | src/scontrol/scontrol.c:1036-1066 | in a well-formed grammar no field's text starts past the end of its token |
| Directives.RootOnlyReadsPastToken | src/scontrol/scontrol.c:1121-1133 | as written, "Root=NO" has its value read past the token's end and "Rootless=NO" sets RootOnly; matched on the whole key, both are refused |
| Directives.Compile | src/scontrol/scontrol.c:946-1012 | a command compiles exactly when every token sets a field; otherwise it stops at the first refused token, all tokens before it having been accepted |
| Directives.LastWriteWins | src/scontrol/scontrol.c:946-1012 | each compiled setting is the value given by the last token that sets that key |
| Directives.Anchor | src/scontrol/scontrol.c:906-919 | the entity is named by the first anchored token; there is none exactly when no token is anchored |
| Directives.UpdateWith | src/scontrol/scontrol.c:900-929 | with no anchor there is no entity; a directive is sent only for the first anchor's entity when every token sets a field of its grammar, carrying the settings the compilation gives; an abort names a token that grammar refuses; an undefined outcome names a token read past its end |
| Directives.UpdateIt | src/scontrol/scontrol.c:900-929 | the update as written, RootOnly= recognised on four characters: the same guarantees against the as-written grammars |
| Directives.UpdateItCorrected | src/scontrol/scontrol.c:900-929 | the update with RootOnly= matched on its whole key: the same guarantees against the corrected grammars |
| Directives.SentSettingsAreLastWrites | src/scontrol/scontrol.c:946-1160 | a sent directive holds exactly the keys some word sets, each with the value of the last word setting it |
| Directives.UpdatesAreDefined | src/scontrol/scontrol.c:906-919 | for NUL-free words, the corrected update never reads past a token's end |
| Directives.PastEndOnlyAtRootOnly | src/scontrol/scontrol.c:1121-1122 | as written, a NUL-free token is read past its end exactly when RootOnly= claims it and it is shorter than 9 characters |
| Directives.UndefinedOnlyAtRootOnly | src/scontrol/scontrol.c:900-929 | as written, an update of NUL-free words is undefined exactly when it names a partition and the first word not setting a field is a short one claimed by RootOnly= |
| Directives.OthersAreDefined | src/scontrol/scontrol.c:938-1073 | job and node updates are never undefined |
| Directives.RootUpdate | src/scontrol/scontrol.c:1121-1122 | as written, "update PartitionName=p Root=NO" is undefined at "Root=NO"; corrected, it aborts there |
| Directives.RootlessUpdate | src/scontrol/scontrol.c:1121-1122 | as written, "update PartitionName=p Rootless=NO" sends RootOnly=NO; corrected, it aborts at "Rootless=NO" |
| Directives.ForeignAnchorAborts | src/scontrol/scontrol.c:906-918 | a node update that also names a job, or a job update that also names a node, aborts on the foreign anchor |
| Directives.JobGrammarRefusesNodeName | src/scontrol/scontrol.c:946-1011 | the job grammar refuses "NodeName=..." although Name= shares its first letter |
| Console.KeywordsIgnoreCase | src/scontrol/scontrol.c:743-888 | a word and its lower-case form select the same command |
| Console.AbortAbbreviations | src/scontrol/scontrol.c:743 | a word aborts the controller exactly when it begins "abort" in any case |
| Console.ReconfigureAbbreviations | src/scontrol/scontrol.c:785 | a word asks for reconfiguration exactly when it begins "reconfi" in any case |
| Console.ShutdownAbbreviations | src/scontrol/scontrol.c:851 | a word shuts the controller down exactly when it begins "shutd" in any case |
| Console.TopicsIgnoreCase | src/scontrol/scontrol.c:807-843 | a show topic and its lower-case form name the same topic |
| Console.Fetch | src/scontrol/scontrol.c:418-438 | the records shown come from fresh data, or from the cache on "no change"; otherwise nothing is shown, the cache is kept, and the error is reported unless quiet |
| Console.Preamble | src/scontrol/scontrol.c:426-446 | in quiet mode a refresh prints nothing; in normal mode only a failure; in verbose mode the "no change" note when the cache was reused, then the failure, or on success the snapshot summary when the printer gives one |
| Console.ShowTopic | src/scontrol/scontrol.c:807-843 | each topic sends exactly one query, for the cached time (or, for steps, the time the filter allows), and changes only its own cache as the refresh rules say (and, for nodes, the lookup cursor) |
| Console.ShowCommand | src/scontrol/scontrol.c:794-850 | show sends at most one query; with too many or too few words it changes nothing; it ends the process only with status 1 on an unreadable configuration file |
| Console.UpdateCommand | src/scontrol/scontrol.c:860-868 | update sends a request exactly when the compiler produces a directive, and then sends that directive alone; no entity, a refused token and a token read past its end are each reported; the manager's refusal is reported after the request |
| Console.ConfigIgnoresName | src/scontrol/scontrol.c:249-281 | "show config NAME" does exactly what "show config" does, and on fresh data shows every parameter in order with nothing before them |
| Console.PidToJidCommand | src/scontrol/scontrol.c:768-777 | pid2jid asks the manager exactly when given one argument, and asks about that argument read as a 32-bit pid |
| Console.ShutdownCommand | src/scontrol/scontrol.c:743-751 | abort and shutdown always send their request, extra words notwithstanding |
| Console.ProcessCommand | src/scontrol/scontrol.c:734-891 | a command keeps the stored line; the exit flag is set exactly by an exit keyword; quiet and verbose set the verbosity and nothing else does; at most one request; the only halt is status 1 from "show daemons" |
| Console.UnknownKeywordOnlyReports | src/scontrol/scontrol.c:887-890 | an unknown keyword is reported and changes nothing |
| Console.LocalCommandsStayLocal | src/scontrol/scontrol.c:752-886 | exit, help, quiet, verbose, version and unknown words never contact the manager |
| Console.Dispatch | src/scontrol/scontrol.c:743-868 | show, update, pid2jid, abort and shutdown are carried out by their own functions |
| Console.UpdateIsAllOrNothing | src/scontrol/scontrol.c:860-929 | an update sends one request exactly when an anchor exists and every word sets a field of its grammar as written, and the request is for the anchor's entity |
| Console.FailedQueryKeepsSnapshots | src/scontrol/scontrol.c:794-843 | a failed show query keeps every snapshot and the node cursor, except that a step snapshot of another filter is dropped |
| Console.Startup | src/scontrol/scontrol.c:111-124 | start-up only prints usage texts and collects no more command words than arguments, none of them a flag |
| Console.StartupKeepsCommandWords | src/scontrol/scontrol.c:111-124 | the one-shot command is exactly the non-flag arguments, in order |
| Console.LastVerbosityFlagWins | src/scontrol/scontrol.c:114-121 | the last quiet or verbose flag decides the starting verbosity |
| Console.NoVerbosityFlagIsNormal | src/scontrol/scontrol.c:103-124 | without such a flag the console starts with normal verbosity |
| Console.Interact | src/scontrol/scontrol.c:129-140 | the loop ends only with status 0, 1 or E2BIG: 0 after an exit keyword, E2BIG right after a line with too many words; when the lines run out without an exit status, no exit request is pending unless one was pending before and there were no lines |
| Console.TooManyWordsEndSession | src/scontrol/scontrol.c:129-140 | a line of more than 128 words ends the session with E2BIG, and none of it is carried out |
| Console.LineRunsItsWords | src/scontrol/scontrol.c:129-138 | a line of at most 128 words is carried out as the command its words spell |
| Console.RepeatRunsCommandAgain | src/scontrol/scontrol.c:131-138 | a line followed by `!!` carries out the same command twice, the second time in the session the first left behind |
| Console.Execute | src/scontrol/scontrol.c:111-140 | the process ends only with status 0, 1 or E2BIG, and a one-shot command always ends it, never with E2BIG |

## Left out

- Terminal I/O is not modelled: readline or getline, `add_history`, the prompt, and all message formatting. Messages are abstract events.
- The manager's remote calls (`slurm_load_*`, `slurm_get_job_steps`, `slurm_update_*`, `slurm_shutdown`, `slurm_reconfigure`, `slurm_pid2jobid`) are modelled as the answers of `Console.Env`. The manager's errno and its error text are reduced to an event naming the failed call.
- Host-list expansion (`hostlist_create`/`hostlist_shift`) is an oracle returning the names, or one of three failures (EINVAL, ERANGE, other). Range parsing is not modelled.
- The node state name table is a parameter holding an "END" entry (`Directives.StateTable`). Its actual names are not part of this model.
- `_print_daemons` and `_parse_conf_line` (reading the configuration file, `getnodename`) are reduced to their outcome: the roles found, or an unreadable file, which ends the process with status 1. Their comment-stripping loop is not modelled.
- Memory management is value replacement. The one place where releasing memory changes behaviour, the step cache, is modelled separately (see Findings).
- Console.ShowTopic: the console runs the corrected step cache (Snapshots.RefreshSteps), so after a failed filter switch it asks from time 0, where the code would read the released snapshot's time. The pointer as written is modelled by Snapshots.RefreshStepsAsWritten.
- CText: a `char` stands for one byte of the C string. Non-ASCII text, which C counts byte by byte, is not modelled, so offsets and lengths agree with the C code only for ASCII tokens.
- Directives.PastEndOnlyAtRootOnly: "shorter than 9" counts characters, so it matches the code's read at offset 9 only for ASCII tokens (see the CText line above).
- Directives.UndefinedOnlyAtRootOnly: exact only for ASCII tokens, for the same reason.
- CText.StrToL: a C `long` is taken to be 64 bits (LP64). With a 32-bit `long`, numbers from 2^31 up saturate to 2^31-1, so the 32-bit readings of job ids, step ids, pids and numeric update fields (and CText.DecimalRoundTrip, Directives.NumberRoundTrip) hold only on a 64-bit-long platform.
- `make_time_str`, the `VERSION` text and the contents of printed records are not modelled. Printing is an event naming the record's index.
- At end of input the line is modelled as yielding no words, so the loop reads on. What getline does after end of file is not modelled.
- The size of `input_fields` (128, or argc when larger) is not modelled. It only matters for the message text and for one-shot commands longer than 128 words, which the model accepts, as the source does.
- The step printer's "Job step a.b not found" message sits under a test that cannot hold. It is modelled as written, so Display.ShowSteps reports only "No job steps in the system".
- pid2jid reads its argument with `atol`, modelled as `strtol` in base 10, with the value truncated to a 32-bit pid.
- Console.UpdateCommand: a token read past its end is undefined behaviour in C. The model reports it as an unreadable token rather than guessing what memory holds. The console runs the update as written (Directives.UpdateIt); the corrected update (Directives.UpdateItCorrected) is proved never undefined but is not what the console runs.
- The model follows the code where a reader might expect otherwise:
  - "show config NAME" shows the whole configuration, although the header comment of `_print_config` (scontrol.c:245-248) speaks of printing one parameter;
  - step filtering is done by the manager, not by the console;
  - numeric update fields never refuse text;
  - "show daemons" can end the process with status 1;
  - the step cache releases its snapshot before the replacing query succeeds.

## Findings

| source | as written | input that shows it | evidently intended | confidence | as-written member | corrected member |
|---|---|---|---|---|---|---|
| src/scontrol/scontrol.c:688-702 | When the step filter changes, the cached step snapshot is freed before the new query. The static pointer to it is kept when that query fails. | `show step 1.0` succeeds, `show step 2.0` fails, then `show step 1.0` again: the filter matches the remembered one, so the freed snapshot's time is read, and on "no change" the freed snapshot is printed | clear the pointer when the snapshot is freed, so the next query is a full one | not executed | Snapshots.StepCacheUseAfterRelease | Snapshots.RefreshSteps |
| src/scontrol/scontrol.c:1121-1122 | `RootOnly=` is matched with `strncasecmp` on 4 characters, but its value is read from offset 9 | `update PartitionName=p Root=NO` reads the value past the end of the 7-character token; `update PartitionName=p Rootless=NO` sets RootOnly to NO | match on all 9 characters of `RootOnly=`, so such tokens are refused like any unknown key | not executed | Directives.RootUpdate | Directives.UpdatesAreDefined |

=== FILE: console.dfy ===
/**
 The console itself: the session it keeps between commands, the dispatch
 of one tokenized command, the start-up flags, and the read-process loop.

 The cluster manager is an environment of answers (one per remote call),
 chosen afresh for every command, and everything the console asks of it
 is recorded as a request, so that what is asked, and when, can be stated.
 */
module Console {
  import opened CText
  import opened Output
  import opened Snapshots
  import opened Display
  import Tokenizer
  import Directives

  // ---------------------------------------------------------------------
  // Keywords

  /** The commands the console knows, as the first word selects them. */
  datatype Keyword =
    | AbortKw | ExitKw | HelpKw | PidToJidKw | QuietKw | ReconfigureKw
    | ShowKw | ShutdownKw | UpdateKw | VerboseKw | VersionKw | UnknownKw

  /**
   The keyword a word selects, tried in the console's order. "abort",
   "reconfigure" and "shutdown" are recognised on their first 5, 7 and 5
   characters; the others only whole. Case never matters.
   */
  function Classify(w: string): Keyword {
    if StrNCaseEq(w, "abort", 5) then AbortKw
    else if StrCaseEq(w, "exit") || StrCaseEq(w, "quit") then ExitKw
    else if StrCaseEq(w, "help") then HelpKw
    else if StrCaseEq(w, "pid2jid") then PidToJidKw
    else if StrCaseEq(w, "quiet") then QuietKw
    else if StrNCaseEq(w, "reconfigure", 7) then ReconfigureKw
    else if StrCaseEq(w, "show") then ShowKw
    else if StrNCaseEq(w, "shutdown", 5) then ShutdownKw
    else if StrCaseEq(w, "update") then UpdateKw
    else if StrCaseEq(w, "verbose") then VerboseKw
    else if StrCaseEq(w, "version") then VersionKw
    else UnknownKw
  }

  /** Keywords are case-insensitive: a word and its lower-case form select the same command. */
  lemma KeywordsIgnoreCase(w: string)
    ensures Classify(LowerSeq(w)) == Classify(w)
  {
    CaseFoldedSubject(w, "abort", 0, 5);
    CaseFoldedSubject(w, "reconfigure", 0, 7);
    CaseFoldedSubject(w, "shutdown", 0, 5);
    CaseFoldedWord(w, "exit");
    CaseFoldedWord(w, "quit");
    CaseFoldedWord(w, "help");
    CaseFoldedWord(w, "pid2jid");
    CaseFoldedWord(w, "quiet");
    CaseFoldedWord(w, "show");
    CaseFoldedWord(w, "update");
    CaseFoldedWord(w, "verbose");
    CaseFoldedWord(w, "version");
  }

  /** A word whose first character differs from a keyword's, up to case, is not that keyword. */
  lemma OtherInitial(w: string, key: string, n: nat)
    requires 0 < n && 0 < |w| && 0 < |key| && Lower(w[0]) != Lower(key[0])
    ensures !StrNCaseEq(w, key, n) && !StrCaseEq(w, key)
  {
  }

  /** Any word that begins "abort", in any case, aborts the controller; nothing shorter does. */
  lemma AbortAbbreviations(w: string)
    requires NUL !in w
    ensures Classify(w) == AbortKw <==> 5 <= |w| && LowerSeq(w[..5]) == "abort"
  {
    PrefixMatchMeaning(w, "abort", 5);
    assert LowerSeq("abort"[..5]) == "abort";
  }

  /**
   Any word that begins "reconfi", in any case, asks for a reconfiguration
   ("reconfig" does, "recon" does not).
   */
  lemma ReconfigureAbbreviations(w: string)
    requires NUL !in w
    ensures Classify(w) == ReconfigureKw <==> 7 <= |w| && LowerSeq(w[..7]) == "reconfi"
  {
    PrefixMatchMeaning(w, "reconfigure", 7);
    assert LowerSeq("reconfigure"[..7]) == "reconfi";
    if 7 <= |w| && LowerSeq(w[..7]) == "reconfi" {
      assert Lower(w[0]) == LowerSeq(w[..7])[0] == 'r';
      OtherInitial(w, "abort", 5);
      OtherInitial(w, "exit", 1);
      OtherInitial(w, "quit", 1);
      OtherInitial(w, "help", 1);
      OtherInitial(w, "pid2jid", 1);
      OtherInitial(w, "quiet", 1);
    }
  }

  /** Any word that begins "shutd", in any case, shuts the controller down. */
  lemma ShutdownAbbreviations(w: string)
    requires NUL !in w
    ensures Classify(w) == ShutdownKw <==> 5 <= |w| && LowerSeq(w[..5]) == "shutd"
  {
    PrefixMatchMeaning(w, "shutdown", 5);
    assert LowerSeq("shutdown"[..5]) == "shutd";
    if 5 <= |w| && LowerSeq(w[..5]) == "shutd" {
      assert Lower(w[0]) == LowerSeq(w[..5])[0] == 's';
      OtherInitial(w, "abort", 5);
      OtherInitial(w, "exit", 1);
      OtherInitial(w, "quit", 1);
      OtherInitial(w, "help", 1);
      OtherInitial(w, "pid2jid", 1);
      OtherInitial(w, "quiet", 1);
      OtherInitial(w, "reconfigure", 7);
      // "show" agrees on "sh" and parts at the third letter
      CaseEqMeaning(w, "show");
      assert LowerSeq(w)[2] == Lower(w[2]) == LowerSeq(w[..5])[2] == 'u';
      assert LowerSeq("show")[2] == 'o';
    }
  }

  /** What "show" is asked to show, selected by its second word. */
  datatype Topic = ConfigTopic | DaemonsTopic | JobsTopic | NodesTopic | PartitionsTopic | StepsTopic | UnknownTopic

  /** The topic a word names, each recognised on a prefix: con, daemo, job, nod, par, step. */
  function TopicOf(w: string): Topic {
    if StrNCaseEq(w, "config", 3) then ConfigTopic
    else if StrNCaseEq(w, "daemons", 5) then DaemonsTopic
    else if StrNCaseEq(w, "jobs", 3) then JobsTopic
    else if StrNCaseEq(w, "nodes", 3) then NodesTopic
    else if StrNCaseEq(w, "partitions", 3) then PartitionsTopic
    else if StrNCaseEq(w, "steps", 4) then StepsTopic
    else UnknownTopic
  }

  /** Topics are case-insensitive too. */
  lemma TopicsIgnoreCase(w: string)
    ensures TopicOf(LowerSeq(w)) == TopicOf(w)
  {
    CaseFoldedSubject(w, "config", 0, 3);
    CaseFoldedSubject(w, "daemons", 0, 5);
    CaseFoldedSubject(w, "jobs", 0, 3);
    CaseFoldedSubject(w, "nodes", 0, 3);
    CaseFoldedSubject(w, "partitions", 0, 3);
    CaseFoldedSubject(w, "steps", 0, 4);
  }

  // ---------------------------------------------------------------------
  // The session and its environment

  /**
   What the console remembers between commands: its verbosity, whether it
   was asked to exit, the stored input line that "!!" replays, the last
   snapshot of each kind, and where the next node lookup starts.
   */
  datatype Session = Session(
    verbosity: Verbosity,
    exitRequested: bool,
    stored: string,
    config: Option<Snapshot<ConfigParam>>,
    jobs: Option<Snapshot<JobRecord>>,
    nodes: Option<Snapshot<NodeRecord>>,
    parts: Option<Snapshot<PartitionRecord>>,
    steps: StepCache<StepRecord>,
    nodeCursor: nat)

  const Initial: Session :=
    Session(Normal, false, [], None, None, None, None, StepCache(None, StepFilter(0, 0)), 0)

  /**
   The manager's answers during one command: the reply to each load for a
   given "changed since" time (and step filter), the host list expander,
   the job owning a process id, whether shutdown (abort or not),
   reconfiguration and an update succeed, the daemons the local
   configuration file names for this host (None when it cannot be read),
   and the node state names.
   */
  datatype Env = Env(
    loadConfig: int -> Reply<ConfigParam>,
    loadJobs: int -> Reply<JobRecord>,
    loadNodes: int -> Reply<NodeRecord>,
    loadParts: int -> Reply<PartitionRecord>,
    loadSteps: (int, StepFilter) -> Reply<StepRecord>,
    expandHosts: string -> HostList,
    pidToJob: int -> Option<nat>,
    shutdownOk: bool -> bool,
    reconfigureOk: bool,
    updateOk: Directives.Directive -> bool,
    daemonRoles: Option<(bool, bool)>,
    states: Directives.StateTable)

  /** A request sent to the manager. */
  datatype Request =
    | Query(kind: Entity, since: int)
    | StepQuery(since: int, filter: StepFilter)
    | UpdateRequest(directive: Directives.Directive)
    | ShutdownRequest(abort: bool)
    | ReconfigureRequest
    | PidRequest(pid: int)

  /**
   The outcome of one command: the session after it, what it printed, what
   it asked of the manager, and the exit status when it ended the process.
   */
  datatype Step = Step(session: Session, events: seq<Event>, requests: seq<Request>, halt: Option<int>)

  /** A command that only reports. */
  function Report(s: Session, events: seq<Event>): Step {
    Step(s, events, [], None)
  }

  /** The complaint about a command given more than max words. */
  function Excess(words: seq<string>, max: nat): (evs: seq<Event>)
    requires |words| > 0
    ensures |evs| <= 1
    ensures evs == [] <==> |words| <= max
  {
    if |words| > max then [TooManyArgs(words[0])] else []
  }

  // ---------------------------------------------------------------------
  // Refreshing a snapshot

  /**
   The messages around a refresh: the verbose "no change" note when the
   cached snapshot was reused, then either the error (unless quiet) or,
   when asked for, the verbose summary of the snapshot.
   */
  function Preamble<T>(kind: Entity, call: RemoteCall, rf: Refreshed<T>, v: Verbosity, summary: bool): (evs: seq<Event>)
    requires rf.ok ==> rf.cache.Some?
    ensures v == Quiet ==> evs == []
    ensures v == Normal ==> evs == (if rf.ok then [] else [RemoteError(call)])
    ensures v == Verbose && !rf.ok ==> evs == (if rf.reused then [NoChangeNote(kind)] else []) + [RemoteError(call)]
    ensures v == Verbose && rf.ok ==>
              evs == (if rf.reused then [NoChangeNote(kind)] else [])
                     + (if summary then [SnapshotInfo(kind, rf.cache.value.lastUpdate, |rf.cache.value.records|)] else [])
  {
    var note := if rf.reused then IfVerbose(v, NoChangeNote(kind)) else [];
    if !rf.ok then note + UnlessQuiet(v, RemoteError(call))
    else
      var snap := rf.cache.value;
      note + (if summary then IfVerbose(v, SnapshotInfo(kind, snap.lastUpdate, |snap.records|)) else [])
  }

  /** A refreshed cache, what was printed about the refresh, and the records to show if any. */
  datatype Fetched<T> = Fetched(cache: Option<Snapshot<T>>, events: seq<Event>, records: Option<seq<T>>)

  /**
   Refreshes one snapshot cache from the manager's reply: the records come
   from the new snapshot on fresh data, from the cached one on "no change",
   and there are none to show after any other failure.
   */
  function Fetch<T>(kind: Entity, call: RemoteCall, cache: Option<Snapshot<T>>, reply: Reply<T>,
                    v: Verbosity, summary: bool): (r: Fetched<T>)
    ensures r.records.Some? <==> reply.Fresh? || (reply.NoChange? && cache.Some?)
    ensures reply.Fresh? ==> r.cache == Some(reply.snapshot) && r.records == Some(reply.snapshot.records)
    ensures reply.NoChange? && cache.Some? ==> r.cache == cache && r.records == Some(cache.value.records)
    ensures r.records.None? ==> r.cache == cache
    ensures v == Quiet ==> r.events == []
    ensures v == Normal ==> r.events == (if r.records.Some? then [] else [RemoteError(call)])
  {
    var rf := Refresh(cache, reply);
    Fetched(rf.cache, Preamble(kind, call, rf, v, summary), if rf.ok then Some(rf.cache.value.records) else None)
  }

  // ---------------------------------------------------------------------
  // One command

  /** The optional argument of "show": its third word. */
  function ShowArg(words: seq<string>): Option<string> {
    if |words| > 2 then Some(words[2]) else None
  }

  /** "show config|jobs|partitions", "show nodes" and "show steps", after the argument checks. */
  function ShowTopic(s: Session, t: Topic, arg: Option<string>, env: Env): (r: Step)
    requires t != DaemonsTopic && t != UnknownTopic
    ensures r.halt.None?
    ensures t == ConfigTopic ==>
              r.requests == [Query(ConfigKind, Since(s.config))] &&
              r.session == s.(config := Refresh(s.config, env.loadConfig(Since(s.config))).cache)
    ensures t == JobsTopic ==>
              r.requests == [Query(JobKind, Since(s.jobs))] &&
              r.session == s.(jobs := Refresh(s.jobs, env.loadJobs(Since(s.jobs))).cache)
    ensures t == NodesTopic ==>
              r.requests == [Query(NodeKind, Since(s.nodes))] &&
              r.session.(nodeCursor := s.nodeCursor) == s.(nodes := Refresh(s.nodes, env.loadNodes(Since(s.nodes))).cache)
    ensures t == PartitionsTopic ==>
              r.requests == [Query(PartitionKind, Since(s.parts))] &&
              r.session == s.(parts := Refresh(s.parts, env.loadParts(Since(s.parts))).cache)
    ensures t == StepsTopic ==>
              var f := ParseStepFilter(arg);
              r.requests == [StepQuery(StepSince(s.steps, f), f)] &&
              r.session == s.(steps := RefreshSteps(s.steps, f, env.loadSteps(StepSince(s.steps, f), f)).steps)
  {
    var v := s.verbosity;
    match t
    case ConfigTopic =>
      var since := Since(s.config);
      var f := Fetch(ConfigKind, LoadConfig, s.config, env.loadConfig(since), v, false);
      var shown := if f.records.Some? then ShowConfig(f.records.value) else [];
      Step(s.(config := f.cache), f.events + shown, [Query(ConfigKind, since)], None)
    case JobsTopic =>
      var since := Since(s.jobs);
      var f := Fetch(JobKind, LoadJobs, s.jobs, env.loadJobs(since), v, true);
      var shown := if f.records.Some? then ShowJobs(f.records.value, arg, v) else [];
      Step(s.(jobs := f.cache), f.events + shown, [Query(JobKind, since)], None)
    case NodesTopic =>
      var since := Since(s.nodes);
      var f := Fetch(NodeKind, LoadNodes, s.nodes, env.loadNodes(since), v, true);
      if f.records.Some? then
        var view := ShowNodeList(f.records.value, arg, env.expandHosts, s.nodeCursor, v);
        Step(s.(nodes := f.cache, nodeCursor := view.cursor), f.events + view.events, [Query(NodeKind, since)], None)
      else
        Step(s.(nodes := f.cache), f.events, [Query(NodeKind, since)], None)
    case PartitionsTopic =>
      var since := Since(s.parts);
      var f := Fetch(PartitionKind, LoadPartitions, s.parts, env.loadParts(since), v, true);
      var shown := if f.records.Some? then ShowPartitions(f.records.value, arg, v) else [];
      Step(s.(parts := f.cache), f.events + shown, [Query(PartitionKind, since)], None)
    case StepsTopic =>
      var filter := ParseStepFilter(arg);
      var since := StepSince(s.steps, filter);
      var rs := RefreshSteps(s.steps, filter, env.loadSteps(since, filter));
      var rf := Refreshed(rs.steps.cache, rs.ok, rs.reused);
      var shown := if rs.ok then ShowSteps(rs.steps.cache.value.records, v) else [];
      Step(s.(steps := rs.steps), Preamble(StepKind, LoadSteps, rf, v, true) + shown,
           [StepQuery(since, filter)], None)
  }

  /**
   "show ...": two or three words, else a complaint (withheld in quiet
   mode); the daemons topic reads only the local configuration file, and
   ends the process with status 1 when it cannot.
   */
  function ShowCommand(s: Session, words: seq<string>, env: Env): (r: Step)
    requires |words| > 0
    ensures r.session.verbosity == s.verbosity && r.session.exitRequested == s.exitRequested
    ensures r.session.stored == s.stored
    ensures |r.requests| <= 1
    ensures r.halt.Some? ==> r.halt == Some(1) && env.daemonRoles.None? && r.requests == []
    ensures (|words| < 2 || 3 < |words|) ==> r.session == s && r.requests == [] && r.halt.None?
  {
    var v := s.verbosity;
    if |words| > 3 then Report(s, UnlessQuiet(v, TooManyArgs(words[0])))
    else if |words| < 2 then Report(s, UnlessQuiet(v, TooFewArgs(words[0])))
    else
      match TopicOf(words[1])
      case UnknownTopic => Report(s, UnlessQuiet(v, InvalidEntity(words[1])))
      case DaemonsTopic =>
        var excess := if v == Quiet then [] else Excess(words, 2);
        (match env.daemonRoles
         case None => Step(s, excess + IfVerbose(v, ConfigUnreadable), [], Some(1))
         case Some(roles) => Report(s, excess + [Daemons(roles.0, roles.1)]))
      case t => ShowTopic(s, t, ShowArg(words), env)
  }

  /**
   "update ...": the words after the keyword are compiled; a directive is
   sent only when every one of them is accepted, and a refused word aborts
   the request before anything is sent.
   */
  function UpdateCommand(s: Session, words: seq<string>, env: Env): (r: Step)
    requires |words| > 0
    ensures r.session == s && r.halt.None?
    ensures |words| < 2 ==> r.requests == [] && r.events == [TooFewArgs(words[0])]
    ensures |words| >= 2 ==>
              (r.requests != [] <==> Directives.UpdateIt(words[1..], env.states).Send?)
    ensures |words| >= 2 && r.requests != [] ==>
              r.requests == [UpdateRequest(Directives.UpdateIt(words[1..], env.states).directive)]
    ensures |words| >= 2 ==>
              var outcome := Directives.UpdateIt(words[1..], env.states);
              && (outcome.NoEntity? ==> r.events == [NoValidEntity])
              && (outcome.Aborted? ==> r.events == [InvalidInput(outcome.token, outcome.hint)])
              && (outcome.Undefined? ==> r.events == [UnreadableInput(outcome.token)])
              && (outcome.Send? ==> (r.events == [] <==> env.updateOk(outcome.directive)))
  {
    if |words| < 2 then Report(s, [TooFewArgs(words[0])])
    else
      match Directives.UpdateIt(words[1..], env.states)
      case NoEntity => Report(s, [NoValidEntity])
      case Aborted(token, hint) => Report(s, [InvalidInput(token, hint)])
      case Undefined(token) => Report(s, [UnreadableInput(token)])
      case Send(d) =>
        Step(s, if env.updateOk(d) then [] else [RemoteError(UpdateCall)], [UpdateRequest(d)], None)
  }

  /** "pid2jid <pid>": asks which job owns the process id, read as a C long cast to pid_t. */
  function PidToJidCommand(s: Session, words: seq<string>, env: Env): (r: Step)
    requires |words| > 0
    ensures r.session == s && r.halt.None?
    ensures |words| == 2 <==> r.requests != []
    ensures |words| == 2 ==> r.requests == [PidRequest(ToInt32(StrToL(words[1]).value))]
  {
    if |words| > 2 then Report(s, [TooManyArgs(words[0])])
    else if |words| < 2 then Report(s, [Usage])
    else
      var pid := ToInt32(StrToL(words[1]).value);
      var answer := match env.pidToJob(pid)
        case Some(job) => [JobOfPid(job)]
        case None => UnlessQuiet(s.verbosity, RemoteError(PidToJobCall));
      Step(s, answer, [PidRequest(pid)], None)
  }

  /** "abort" and "shutdown": ask the manager to stop, the complaint about extra words notwithstanding. */
  function ShutdownCommand(s: Session, words: seq<string>, env: Env, abort: bool): (r: Step)
    requires |words| > 0
    ensures r.session == s && r.halt.None? && r.requests == [ShutdownRequest(abort)]
  {
    var failed := if env.shutdownOk(abort) then [] else UnlessQuiet(s.verbosity, RemoteError(ShutdownCall));
    Step(s, Excess(words, 2) + failed, [ShutdownRequest(abort)], None)
  }

  /**
   Carries out one tokenized command. Nothing it does ends the console
   except the exit keywords (through the session's exit flag) and an
   unreadable configuration file under "show daemons".
   */
  function ProcessCommand(s: Session, words: seq<string>, env: Env): (r: Step)
    ensures r.session.stored == s.stored
    ensures r.session.exitRequested <==> s.exitRequested || (|words| > 0 && Classify(words[0]) == ExitKw)
    ensures r.session.verbosity ==
              if |words| > 0 && Classify(words[0]) == QuietKw then Quiet
              else if |words| > 0 && Classify(words[0]) == VerboseKw then Verbose
              else s.verbosity
    ensures |r.requests| <= 1
    ensures r.halt.Some? ==> r.halt == Some(1) && |words| > 0 && Classify(words[0]) == ShowKw && env.daemonRoles.None?
  {
    var v := s.verbosity;
    if |words| == 0 then Report(s, IfVerbose(v, NoInput))
    else
      match Classify(words[0])
      case AbortKw => ShutdownCommand(s, words, env, true)
      case ExitKw => Report(s.(exitRequested := true), Excess(words, 1))
      case HelpKw => Report(s, Excess(words, 1) + [Usage])
      case PidToJidKw => PidToJidCommand(s, words, env)
      case QuietKw => Report(s.(verbosity := Quiet), Excess(words, 1))
      case ReconfigureKw =>
        var failed := if env.reconfigureOk then [] else UnlessQuiet(v, RemoteError(ReconfigureCall));
        Step(s, Excess(words, 2) + failed, [ReconfigureRequest], None)
      case ShowKw => ShowCommand(s, words, env)
      case ShutdownKw => ShutdownCommand(s, words, env, false)
      case UpdateKw => UpdateCommand(s, words, env)
      case VerboseKw => Report(s.(verbosity := Verbose), Excess(words, 1))
      case VersionKw => Report(s, Excess(words, 1) + [VersionInfo])
      case UnknownKw => Report(s, [InvalidKeyword(words[0])])
  }

  /** An unknown keyword is reported and changes nothing else. */
  lemma UnknownKeywordOnlyReports(s: Session, words: seq<string>, env: Env)
    requires |words| > 0 && Classify(words[0]) == UnknownKw
    ensures ProcessCommand(s, words, env) == Step(s, [InvalidKeyword(words[0])], [], None)
  {
  }

  /**
   Commands that only change or consult the console itself (exit, help,
   quiet, verbose, version, and unknown words) never contact the manager.
   */
  lemma LocalCommandsStayLocal(s: Session, words: seq<string>, env: Env)
    requires |words| > 0
    requires Classify(words[0]) in {ExitKw, HelpKw, QuietKw, VerboseKw, VersionKw, UnknownKw}
    ensures ProcessCommand(s, words, env).requests == []
    ensures ProcessCommand(s, words, env).halt.None?
  {
  }

  /**
   "show config" prints every parameter whatever name follows it: the name
   is never looked at, and fresh parameters are all shown, in order, with
   no summary before them.
   */
  lemma ConfigIgnoresName(s: Session, words: seq<string>, env: Env)
    requires 2 <= |words| <= 3 && TopicOf(words[1]) == ConfigTopic
    ensures ShowCommand(s, words, env) == ShowCommand(s, words[..2], env)
    ensures var reply := env.loadConfig(Since(s.config));
            var evs := ShowCommand(s, words, env).events;
            reply.Fresh? ==>
              && |evs| == |reply.snapshot.records|
              && forall i :: 0 <= i < |evs| ==> evs[i] == Shown(ConfigKind, i)
  {
    assert words[..2][1] == words[1];
    ConfigTopicIgnoresName(s, ShowArg(words), env);
    assert ShowCommand(s, words, env) == ShowTopic(s, ConfigTopic, ShowArg(words), env);
    assert ShowCommand(s, words[..2], env) == ShowTopic(s, ConfigTopic, None, env);
  }

  lemma ConfigTopicIgnoresName(s: Session, arg: Option<string>, env: Env)
    ensures ShowTopic(s, ConfigTopic, arg, env) == ShowTopic(s, ConfigTopic, None, env)
    ensures var reply := env.loadConfig(Since(s.config));
            var evs := ShowTopic(s, ConfigTopic, arg, env).events;
            reply.Fresh? ==>
              && |evs| == |reply.snapshot.records|
              && forall i :: 0 <= i < |evs| ==> evs[i] == Shown(ConfigKind, i)
  {
    if env.loadConfig(Since(s.config)).Fresh? {
      FreshConfigShownWhole(s, arg, env);
    }
  }

  lemma FreshConfigShownWhole(s: Session, arg: Option<string>, env: Env)
    requires env.loadConfig(Since(s.config)).Fresh?
    ensures var evs := ShowTopic(s, ConfigTopic, arg, env).events;
            && |evs| == |env.loadConfig(Since(s.config)).snapshot.records|
            && forall i :: 0 <= i < |evs| ==> evs[i] == Shown(ConfigKind, i)
  {
    var reply := env.loadConfig(Since(s.config));
    var f := Fetch(ConfigKind, LoadConfig, s.config, reply, s.verbosity, false);
    assert f.events == [];
    assert ShowTopic(s, ConfigTopic, arg, env).events == ShowConfig(reply.snapshot.records);
  }

  /** The commands that reach the manager are carried out by their own functions. */
  lemma Dispatch(s: Session, words: seq<string>, env: Env)
    requires |words| > 0
    ensures Classify(words[0]) == ShowKw ==> ProcessCommand(s, words, env) == ShowCommand(s, words, env)
    ensures Classify(words[0]) == UpdateKw ==> ProcessCommand(s, words, env) == UpdateCommand(s, words, env)
    ensures Classify(words[0]) == PidToJidKw ==> ProcessCommand(s, words, env) == PidToJidCommand(s, words, env)
    ensures Classify(words[0]) == AbortKw ==> ProcessCommand(s, words, env) == ShutdownCommand(s, words, env, true)
    ensures Classify(words[0]) == ShutdownKw ==> ProcessCommand(s, words, env) == ShutdownCommand(s, words, env, false)
  {
  }

  /**
   An update is all or nothing: at most one request, sent exactly when an
   anchor names the entity and its grammar accepts every word, carrying
   that entity; the session is untouched either way.
   */
  lemma UpdateIsAllOrNothing(s: Session, words: seq<string>, env: Env)
    requires |words| >= 2
    ensures var r := UpdateCommand(s, words, env);
            var args := words[1..];
            && r.session == s
            && |r.requests| <= 1
            && (|r.requests| == 1 <==>
                  Directives.Anchor(args).Some? &&
                  forall i :: 0 <= i < |args| ==>
                    Directives.ReadToken(Directives.GrammarOf(Directives.Anchor(args).value, env.states), args[i]).Set?)
            && (|r.requests| == 1 ==>
                  r.requests[0].UpdateRequest? && r.requests[0].directive.target == Directives.Anchor(args).value)
  {
    var args := words[1..];
    var outcome := Directives.UpdateIt(args, env.states);
    if Directives.Anchor(args).Some? {
      var g := Directives.GrammarOf(Directives.Anchor(args).value, env.states);
      var c := Directives.Compile(g, args);
      assert outcome.Send? <==> c.Settings?;
    }
  }

  /**
   A failed "show" query leaves every snapshot as it was, apart from the
   step snapshot of another filter, which is dropped.
   */
  lemma FailedQueryKeepsSnapshots(s: Session, words: seq<string>, env: Env)
    requires 2 <= |words| <= 3
    requires env.loadConfig(Since(s.config)).Failed? && env.loadJobs(Since(s.jobs)).Failed?
    requires env.loadNodes(Since(s.nodes)).Failed? && env.loadParts(Since(s.parts)).Failed?
    requires forall t, f :: env.loadSteps(t, f).Failed?
    ensures var r := ShowCommand(s, words, env).session;
            && r.config == s.config && r.jobs == s.jobs && r.nodes == s.nodes && r.parts == s.parts
            && r.nodeCursor == s.nodeCursor
            && (r.steps.cache == s.steps.cache || r.steps.cache.None?)
  {
    var t := TopicOf(words[1]);
    if t != DaemonsTopic && t != UnknownTopic {
      FailedTopicKeepsSnapshots(s, t, ShowArg(words), env);
    }
  }

  lemma FailedTopicKeepsSnapshots(s: Session, t: Topic, arg: Option<string>, env: Env)
    requires t != DaemonsTopic && t != UnknownTopic
    requires env.loadConfig(Since(s.config)).Failed? && env.loadJobs(Since(s.jobs)).Failed?
    requires env.loadNodes(Since(s.nodes)).Failed? && env.loadParts(Since(s.parts)).Failed?
    requires forall t, f :: env.loadSteps(t, f).Failed?
    ensures var r := ShowTopic(s, t, arg, env).session;
            && r.config == s.config && r.jobs == s.jobs && r.nodes == s.nodes && r.parts == s.parts
            && r.nodeCursor == s.nodeCursor
            && (r.steps.cache == s.steps.cache || r.steps.cache.None?)
  {
    if t == StepsTopic {
      var f := ParseStepFilter(arg);
      assert env.loadSteps(StepSince(s.steps, f), f).Failed?;
    } else if t == NodesTopic {
      var fetched := Fetch(NodeKind, LoadNodes, s.nodes, env.loadNodes(Since(s.nodes)), s.verbosity, true);
      assert fetched.records.None?;
    }
  }

  // ---------------------------------------------------------------------
  // Start-up

  /** What a command-line argument is to the console. */
  datatype Flag = HelpFlag | QuietFlag | VerboseFlag | CommandWord

  /**
   Arguments starting "-h" ask for the usage text; "-q" and "quiet", "-v"
   and "verbose" set the verbosity; anything else is a word of a command
   to run once. The comparisons are the C ones, up to the first NUL.
   */
  function FlagOf(a: string): Flag {
    var c := CString(a);
    if |c| >= 2 && c[..2] == "-h" then HelpFlag
    else if c == "-q" || c == "quiet" then QuietFlag
    else if c == "-v" || c == "verbose" then VerboseFlag
    else CommandWord
  }

  /** The start-up state: the verbosity, the usage messages, and the command to run once. */
  datatype Start = Start(verbosity: Verbosity, events: seq<Event>, command: seq<string>)

  /** The arguments read left to right. */
  function Startup(args: seq<string>): (r: Start)
    ensures |r.command| <= |args|
    ensures forall e :: e in r.events ==> e == Usage
    ensures forall i :: 0 <= i < |r.command| ==> FlagOf(r.command[i]) == CommandWord
    decreases |args|
  {
    if |args| == 0 then Start(Normal, [], [])
    else
      var prev := Startup(args[..|args| - 1]);
      var a := args[|args| - 1];
      match FlagOf(a)
      case HelpFlag => prev.(events := prev.events + [Usage])
      case QuietFlag => prev.(verbosity := Quiet)
      case VerboseFlag => prev.(verbosity := Verbose)
      case CommandWord => prev.(command := prev.command + [a])
  }

  /** The command words among the arguments, in order (a reference definition, read right to left). */
  function CommandWords(args: seq<string>): seq<string>
    decreases |args|
  {
    if |args| == 0 then []
    else (if FlagOf(args[0]) == CommandWord then [args[0]] else []) + CommandWords(args[1..])
  }

  /** The command collected at start-up is exactly the non-flag arguments, in order. */
  lemma {:induction false} StartupKeepsCommandWords(args: seq<string>)
    ensures Startup(args).command == CommandWords(args)
    decreases |args|
  {
    if |args| > 0 {
      var init := args[..|args| - 1];
      StartupKeepsCommandWords(init);
      CommandWordsOfAppend(init, args[|args| - 1]);
      assert init + [args[|args| - 1]] == args;
    }
  }

  /** Appending an argument appends it to the command words exactly when it is one. */
  lemma {:induction false} CommandWordsOfAppend(args: seq<string>, a: string)
    ensures CommandWords(args + [a]) == CommandWords(args) + (if FlagOf(a) == CommandWord then [a] else [])
    decreases |args|
  {
    if |args| == 0 {
      assert [] + [a] == [a];
    } else {
      assert (args + [a])[1..] == args[1..] + [a];
      CommandWordsOfAppend(args[1..], a);
    }
  }

  /** Whether an argument sets the verbosity. */
  predicate SetsVerbosity(a: string) {
    FlagOf(a) == QuietFlag || FlagOf(a) == VerboseFlag
  }

  /**
   The last verbosity flag wins: with a verbosity flag at i and none after
   it, the session starts quiet or verbose as that flag says; with no
   verbosity flag at all it starts normal.
   */
  lemma {:induction false} LastVerbosityFlagWins(args: seq<string>, i: nat)
    requires i < |args| && SetsVerbosity(args[i])
    requires forall j :: i < j < |args| ==> !SetsVerbosity(args[j])
    ensures Startup(args).verbosity == if FlagOf(args[i]) == QuietFlag then Quiet else Verbose
    decreases |args|
  {
    if i < |args| - 1 {
      var init := args[..|args| - 1];
      assert init[i] == args[i];
      LastVerbosityFlagWins(init, i);
    }
  }

  /** Without a verbosity flag the session starts with normal verbosity. */
  lemma {:induction false} NoVerbosityFlagIsNormal(args: seq<string>)
    requires forall j :: 0 <= j < |args| ==> !SetsVerbosity(args[j])
    ensures Startup(args).verbosity == Normal
    decreases |args|
  {
    if |args| > 0 {
      NoVerbosityFlagIsNormal(args[..|args| - 1]);
    }
  }

  // ---------------------------------------------------------------------
  // The loop

  /**
   A run so far: the session, everything printed and requested, and the
   exit status once the process has ended (None while it awaits input).
   */
  datatype Run = Run(session: Session, events: seq<Event>, requests: seq<Request>, exit: Option<int>)

  /** The exit statuses the console can end with. */
  predicate IsExitStatus(code: int) {
    code == 0 || code == 1 || code == Tokenizer.E2BIG
  }

  /**
   Reads and carries out lines until one has too many words, a command
   ends the process, or an exit keyword has been given; the k-th command
   meets the manager as envAt(k). A line of None is the end of input,
   which yields no words, so the console goes on reading.
   */
  function Interact(s: Session, lines: seq<Option<string>>, envAt: nat -> Env, k: nat): (r: Run)
    ensures r.exit.Some? ==> IsExitStatus(r.exit.value)
    ensures r.exit == Some(0) ==> r.session.exitRequested
    ensures r.exit == Some(Tokenizer.E2BIG) ==> |r.events| > 0 && r.events[|r.events| - 1] == TooManyWords
    ensures r.exit.None? ==> !r.session.exitRequested || (s.exitRequested && |lines| == 0)
    decreases |lines|
  {
    if |lines| == 0 then Run(s, [], [], None)
    else
      var cmd := Tokenizer.GetCommand(s.stored, lines[0]);
      var read := s.(stored := cmd.stored);
      if cmd.code != 0 then Run(read, [TooManyWords], [], Some(cmd.code))
      else
        var step := ProcessCommand(read, cmd.words, envAt(k));
        if step.halt.Some? then Run(step.session, step.events, step.requests, step.halt)
        else if step.session.exitRequested then Run(step.session, step.events, step.requests, Some(0))
        else
          var rest := Interact(step.session, lines[1..], envAt, k + 1);
          Run(rest.session, step.events + rest.events, step.requests + rest.requests, rest.exit)
  }

  /** A line of more than 128 words ends the session with E2BIG before any of it is carried out. */
  lemma TooManyWordsEndSession(s: Session, line: string, rest: seq<Option<string>>, envAt: nat -> Env, k: nat)
    requires NUL !in line && line != Tokenizer.REPEAT
    requires |Tokenizer.Words(line)| > Tokenizer.MAX_INPUT_FIELDS
    ensures var r := Interact(s, [Some(line)] + rest, envAt, k);
            && r.exit == Some(Tokenizer.E2BIG) && r.events == [TooManyWords] && r.requests == []
  {
    Tokenizer.LineYieldsWords(s.stored, line);
    assert ([Some(line)] + rest)[0] == Some(line);
  }

  /** A single line that tokenizes cleanly contributes exactly what its command does. */
  lemma OneLine(s: Session, line: Option<string>, envAt: nat -> Env, k: nat)
    requires Tokenizer.GetCommand(s.stored, line).code == 0
    ensures var cmd := Tokenizer.GetCommand(s.stored, line);
            var step := ProcessCommand(s.(stored := cmd.stored), cmd.words, envAt(k));
            var r := Interact(s, [line], envAt, k);
            r.events == step.events && r.requests == step.requests
  {
    var cmd := Tokenizer.GetCommand(s.stored, line);
    var step := ProcessCommand(s.(stored := cmd.stored), cmd.words, envAt(k));
    if step.halt.None? && !step.session.exitRequested {
      assert [line][1..] == [];
      assert Interact(step.session, [], envAt, k + 1) == Run(step.session, [], [], None);
    }
  }

  /** A line of at most 128 words is carried out as the command its words spell. */
  lemma LineRunsItsWords(s: Session, line: string, envAt: nat -> Env, k: nat)
    requires NUL !in line && line != Tokenizer.REPEAT
    requires |Tokenizer.Words(line)| <= Tokenizer.MAX_INPUT_FIELDS
    ensures var stored := Tokenizer.GetCommand(s.stored, Some(line)).stored;
            var step := ProcessCommand(s.(stored := stored), Tokenizer.Words(line), envAt(k));
            var r := Interact(s, [Some(line)], envAt, k);
            r.events == step.events && r.requests == step.requests
  {
    Tokenizer.LineYieldsWords(s.stored, line);
    OneLine(s, Some(line), envAt, k);
  }

  /**
   "!!" after a line carries out that line's command again, with the
   session the first run left behind.
   */
  lemma RepeatRunsCommandAgain(s: Session, line: string, envAt: nat -> Env, k: nat)
    requires NUL !in line && line != Tokenizer.REPEAT
    requires |Tokenizer.Words(line)| <= Tokenizer.MAX_INPUT_FIELDS
    requires var stored := Tokenizer.GetCommand(s.stored, Some(line)).stored;
             var step := ProcessCommand(s.(stored := stored), Tokenizer.Words(line), envAt(k));
             step.halt.None? && !step.session.exitRequested
    ensures var stored := Tokenizer.GetCommand(s.stored, Some(line)).stored;
            var first := ProcessCommand(s.(stored := stored), Tokenizer.Words(line), envAt(k));
            var again := ProcessCommand(first.session, Tokenizer.Words(line), envAt(k + 1));
            var r := Interact(s, [Some(line), Some(Tokenizer.REPEAT)], envAt, k);
            r.events == first.events + again.events && r.requests == first.requests + again.requests
  {
    var cmd := Tokenizer.GetCommand(s.stored, Some(line));
    Tokenizer.LineYieldsWords(s.stored, line);
    Tokenizer.RepeatReplaysLastLine(s.stored, line);
    var first := ProcessCommand(s.(stored := cmd.stored), cmd.words, envAt(k));
    assert first.session.(stored := cmd.stored) == first.session;
    OneLine(first.session, Some(Tokenizer.REPEAT), envAt, k + 1);
    assert [Some(line), Some(Tokenizer.REPEAT)][1..] == [Some(Tokenizer.REPEAT)];
  }

  /**
   The whole console: start-up flags, then either the one command given
   on the command line, run once, or the interactive loop over the input
   lines.
   */
  function Execute(args: seq<string>, lines: seq<Option<string>>, envAt: nat -> Env): (r: Run)
    ensures r.exit.Some? ==> IsExitStatus(r.exit.value)
    ensures Startup(args).command != [] ==> r.exit.Some? && r.exit.value != Tokenizer.E2BIG
  {
    var st := Startup(args);
    var s := Initial.(verbosity := st.verbosity);
    if |st.command| > 0 then
      var step := ProcessCommand(s.(exitRequested := true), st.command, envAt(0));
      Run(step.session, st.events + step.events, step.requests, Some(if step.halt.Some? then step.halt.value else 0))
    else
      var r := Interact(s, lines, envAt, 0);
      r.(events := st.events + r.events)
  }
}

=== FILE: ctext.dfy ===
/**
 The C library behaviour the console leans on, stated over Dafny strings:
 the C-locale character classes, case-insensitive comparison in the manner
 of strncasecmp/strcasecmp (which stop at a NUL terminator), decimal
 parsing in the manner of strtol (base 10, saturating, with an end
 pointer), and the truncating conversions to the unsigned widths the
 console stores its numbers in.
 */
module CText {

  datatype Option<T> = None | Some(value: T)

  const NUL: char := '\0'

  /** The range of a C long, taken to be 64 bits wide (LP64). */
  const LONG_MAX: int := 0x7FFF_FFFF_FFFF_FFFF
  const LONG_MIN: int := -0x8000_0000_0000_0000
  const UINT32_RANGE: int := 0x1_0000_0000
  const UINT16_RANGE: int := 0x1_0000

  /** isspace() in the C locale: blank, \t, \n, \v, \f and \r. */
  predicate IsSpace(c: char) {
    c == ' ' || ('\t' <= c <= '\r')
  }

  predicate IsDigit(c: char) {
    '0' <= c <= '9'
  }

  /** tolower() in the C locale. */
  function Lower(c: char): char {
    if 'A' <= c <= 'Z' then (c as int + 32) as char else c
  }

  function LowerSeq(s: string): (r: string)
    ensures |r| == |s|
    ensures forall i :: 0 <= i < |s| ==> r[i] == Lower(s[i])
  {
    seq(|s|, i requires 0 <= i < |s| => Lower(s[i]))
  }

  /** Character k of the NUL-terminated C string holding s (NUL past the end). */
  function At(s: string, k: nat): char {
    if k < |s| then s[k] else NUL
  }

  /**
   strncasecmp(a, b, n) == 0, compared from position k on: the first
   position where the lower-cased characters differ decides "different";
   a common NUL, or reaching n, decides "equal".
   */
  function StrNCaseEqFrom(a: string, b: string, k: nat, n: nat): bool
    decreases n - k
  {
    if k >= n then true
    else if Lower(At(a, k)) != Lower(At(b, k)) then false
    else if At(a, k) == NUL then true
    else StrNCaseEqFrom(a, b, k + 1, n)
  }

  /** strncasecmp(a, b, n) == 0 */
  function StrNCaseEq(a: string, b: string, n: nat): bool {
    StrNCaseEqFrom(a, b, 0, n)
  }

  /** strcasecmp(a, b) == 0, compared from position k on: no length bound. */
  function StrCaseEqFrom(a: string, b: string, k: nat): bool
    decreases |a| + 1 - k
  {
    if k > |a| then true
    else if Lower(At(a, k)) != Lower(At(b, k)) then false
    else if At(a, k) == NUL then true
    else StrCaseEqFrom(a, b, k + 1)
  }

  /** strcasecmp(a, b) == 0 */
  function StrCaseEq(a: string, b: string): bool {
    StrCaseEqFrom(a, b, 0)
  }

  /** strcasecmp is strncasecmp with a bound past the first string's terminator. */
  lemma {:induction false} CaseEqIsBounded(a: string, b: string, k: nat)
    ensures StrCaseEqFrom(a, b, k) == StrNCaseEqFrom(a, b, k, |a| + 1)
    decreases |a| + 1 - k
  {
    if k <= |a| {
      CaseEqIsBounded(a, b, k + 1);
    }
  }

  /**
   For a NUL-free a, the C comparison from k to n succeeds exactly when the
   lower-cased characters agree at every position up to and including a's
   terminator (whatever b holds there).
   */
  lemma {:induction false} StrNCaseEqFromMeaning(a: string, b: string, k: nat, n: nat)
    requires NUL !in a && k <= |a|
    ensures StrNCaseEqFrom(a, b, k, n) <==>
              forall j :: k <= j < n && j <= |a| ==> Lower(At(a, j)) == Lower(At(b, j))
    decreases n - k
  {
    if k < n && Lower(At(a, k)) == Lower(At(b, k)) && At(a, k) != NUL {
      StrNCaseEqFromMeaning(a, b, k + 1, n);
    }
  }

  /**
   strncasecmp(a, key, n) == 0 for a key at least n long: a must be at least
   n long and its first n characters must equal the key's up to case.
   */
  lemma PrefixMatchMeaning(a: string, key: string, n: nat)
    requires NUL !in a && NUL !in key && n <= |key|
    ensures StrNCaseEq(a, key, n) <==> n <= |a| && LowerSeq(a[..n]) == LowerSeq(key[..n])
  {
    StrNCaseEqFromMeaning(a, key, 0, n);
    if n <= |a| {
      assert forall j :: 0 <= j < n ==>
        LowerSeq(a[..n])[j] == Lower(At(a, j)) && LowerSeq(key[..n])[j] == Lower(At(key, j));
    } else {
      // a's terminator meets a character of the key
      assert key[|a|] in key;
      assert Lower(At(a, |a|)) != Lower(At(key, |a|));
    }
  }

  /** strcasecmp(a, b) == 0 on NUL-free strings: equal up to case, hence equally long. */
  lemma CaseEqMeaning(a: string, b: string)
    requires NUL !in a && NUL !in b
    ensures StrCaseEq(a, b) <==> LowerSeq(a) == LowerSeq(b)
  {
    CaseEqIsBounded(a, b, 0);
    StrNCaseEqFromMeaning(a, b, 0, |a| + 1);
    if |a| == |b| {
      assert forall j :: 0 <= j < |a| ==>
        LowerSeq(a)[j] == Lower(At(a, j)) && LowerSeq(b)[j] == Lower(At(b, j));
    } else if |b| < |a| {
      // b's terminator meets a character of a
      assert a[|b|] in a;
      assert Lower(At(a, |b|)) != Lower(At(b, |b|));
    } else {
      // a's terminator meets a character of b
      assert b[|a|] in b;
      assert Lower(At(a, |a|)) != Lower(At(b, |a|));
    }
  }

  /** Lower-casing the subject of a case-insensitive comparison changes nothing. */
  lemma {:induction false} CaseFoldedSubject(a: string, b: string, k: nat, n: nat)
    ensures StrNCaseEqFrom(LowerSeq(a), b, k, n) == StrNCaseEqFrom(a, b, k, n)
    decreases n - k
  {
    assert Lower(At(LowerSeq(a), k)) == Lower(At(a, k));
    assert At(LowerSeq(a), k) == NUL <==> At(a, k) == NUL;
    if k < n {
      CaseFoldedSubject(a, b, k + 1, n);
    }
  }

  /** The C string a buffer holds: its characters before the first NUL. */
  function CString(s: string): (c: string)
    ensures |c| <= |s| && c == s[..|c|]
    ensures NUL !in c
    ensures |c| < |s| ==> s[|c|] == NUL
  {
    if |s| == 0 || s[0] == NUL then [] else [s[0]] + CString(s[1..])
  }

  /** A buffer without a NUL holds itself as a C string. */
  lemma CStringOfNulFree(s: string)
    requires NUL !in s
    ensures CString(s) == s
  {
  }

  /** Lower-casing a word changes no strcasecmp verdict about it. */
  lemma CaseFoldedWord(a: string, b: string)
    ensures StrCaseEq(LowerSeq(a), b) == StrCaseEq(a, b)
  {
    CaseEqIsBounded(LowerSeq(a), b, 0);
    CaseEqIsBounded(a, b, 0);
    CaseFoldedSubject(a, b, 0, |a| + 1);
  }

  // ---------------------------------------------------------------------
  // strtol(s, &end, 10)

  /** The number strtol reads, and the text its end pointer is left at. */
  datatype Parsed = Parsed(value: int, rest: string)

  function SpaceRun(s: string): (n: nat)
    ensures n <= |s|
  {
    if |s| > 0 && IsSpace(s[0]) then 1 + SpaceRun(s[1..]) else 0
  }

  function DigitRun(s: string): (n: nat)
    ensures n <= |s|
  {
    if |s| > 0 && IsDigit(s[0]) then 1 + DigitRun(s[1..]) else 0
  }

  function DigitValue(c: char): nat {
    if IsDigit(c) then c as int - '0' as int else 0
  }

  /** The value of a string of decimal digits, most significant first. */
  function DigitsValue(d: string): nat {
    if |d| == 0 then 0 else DigitsValue(d[..|d| - 1]) * 10 + DigitValue(d[|d| - 1])
  }

  /** strtol's saturation on overflow (it also sets ERANGE, which the console ignores). */
  function Saturate(v: int): int {
    if v > LONG_MAX then LONG_MAX else if v < LONG_MIN then LONG_MIN else v
  }

  /**
   strtol(s, &end, 10): skips leading white space, takes an optional sign
   and the longest run of digits. With no digits the value is 0 and the end
   pointer is s itself.
   */
  function StrToL(s: string): (r: Parsed)
    ensures LONG_MIN <= r.value <= LONG_MAX
    ensures |r.rest| <= |s| && r.rest == s[|s| - |r.rest|..]
  {
    var t := s[SpaceRun(s)..];
    var signed := |t| > 0 && (t[0] == '-' || t[0] == '+');
    var body := if signed then t[1..] else t;
    var n := DigitRun(body);
    if n == 0 then Parsed(0, s)
    else
      var magnitude: int := DigitsValue(body[..n]);
      Parsed(Saturate(if signed && t[0] == '-' then -magnitude else magnitude), body[n..])
  }

  /** A conversion to uint32_t: the value modulo 2^32. */
  function ToUint32(v: int): (r: nat)
    ensures r < UINT32_RANGE
    ensures 0 <= v < UINT32_RANGE ==> r == v
  {
    v % UINT32_RANGE
  }

  /** A conversion to uint16_t: the value modulo 2^16. */
  function ToUint16(v: int): (r: nat)
    ensures r < UINT16_RANGE
    ensures 0 <= v < UINT16_RANGE ==> r == v
  {
    v % UINT16_RANGE
  }

  /** A conversion to a 32-bit signed integer such as pid_t (two's complement). */
  function ToInt32(v: int): (r: int)
    ensures -0x8000_0000 <= r < 0x8000_0000
    ensures -0x8000_0000 <= v < 0x8000_0000 ==> r == v
  {
    (v + 0x8000_0000) % UINT32_RANGE - 0x8000_0000
  }

  /** (uint32_t) strtol(s, NULL, 10) */
  function ParseUint32(s: string): nat {
    ToUint32(StrToL(s).value)
  }

  // ---------------------------------------------------------------------
  // Decimal rendering, the partner of strtol

  function DigitChar(d: nat): char
    requires d < 10
  {
    ('0' as int + d) as char
  }

  /** The decimal numeral of n, without sign or leading zeros. */
  function Decimal(n: nat): (s: string)
    ensures |s| > 0
    decreases n
  {
    if n < 10 then [DigitChar(n)] else Decimal(n / 10) + [DigitChar(n % 10)]
  }

  lemma {:induction false} DecimalIsDigits(n: nat)
    ensures forall i :: 0 <= i < |Decimal(n)| ==> IsDigit(Decimal(n)[i])
    decreases n
  {
    if n >= 10 {
      DecimalIsDigits(n / 10);
    }
  }

  lemma {:induction false} DecimalValue(n: nat)
    ensures DigitsValue(Decimal(n)) == n
    decreases n
  {
    if n >= 10 {
      var d := Decimal(n);
      assert d[..|d| - 1] == Decimal(n / 10);
      DecimalValue(n / 10);
    }
  }

  lemma {:induction false} DigitRunOver(d: string, rest: string)
    requires forall i :: 0 <= i < |d| ==> IsDigit(d[i])
    requires |rest| == 0 || !IsDigit(rest[0])
    ensures DigitRun(d + rest) == |d|
    decreases |d|
  {
    if |d| > 0 {
      assert (d + rest)[1..] == d[1..] + rest;
      DigitRunOver(d[1..], rest);
    } else {
      assert d + rest == rest;
    }
  }

  /** strtol on text that starts with a digit: no blanks, no sign, just the digit run. */
  lemma StrToLOfDigitFirst(s: string)
    requires |s| > 0 && IsDigit(s[0])
    ensures StrToL(s) == Parsed(Saturate(DigitsValue(s[..DigitRun(s)])), s[DigitRun(s)..])
  {
    assert SpaceRun(s) == 0;
    assert s[0..] == s;
  }

  /**
   strtol reads back exactly the number Decimal wrote, and leaves its end
   pointer at whatever non-digit text follows.
   */
  lemma DecimalRoundTrip(n: nat, rest: string)
    requires n <= LONG_MAX
    requires |rest| == 0 || !IsDigit(rest[0])
    ensures StrToL(Decimal(n) + rest) == Parsed(n, rest)
  {
    var d := Decimal(n);
    var s := d + rest;
    DecimalIsDigits(n);
    assert s[0] == d[0];
    StrToLOfDigitFirst(s);
    DigitRunOver(d, rest);
    assert s[..|d|] == d;
    assert s[|d|..] == rest;
    DecimalValue(n);
  }

  /** An unsigned 32-bit value written in decimal parses back to itself. */
  lemma ParseUint32OfDecimal(n: nat)
    requires n < UINT32_RANGE
    ensures ParseUint32(Decimal(n)) == n
  {
    DecimalRoundTrip(n, []);
    assert Decimal(n) + [] == Decimal(n);
  }
}

=== FILE: directives.dfy ===
/**
 The update compiler. An "update" command names its entity through an
 anchor token (NodeName=, PartitionName= or JobId=); the first token that
 carries any anchor selects that entity's grammar, and then every token of
 the command is read against the grammar's ordered table of "Key=" fields.
 A field's text is coerced (decimal with 32-bit truncation, YES/NO with a
 numeric fallback, INFINITE, a fixed choice, or a node state name). The
 first token no field accepts aborts the whole request before anything is
 sent; otherwise one directive carrying every setting, later tokens
 overriding earlier ones, goes to the manager.
 */
module Directives {
  import opened CText
  import opened Output
  import Display

  /** A setting's value: a number, or text taken verbatim from the token. */
  datatype Value = Num(n: nat) | Text(s: string)

  /** INFINITE, the "no limit" value for MaxTime and MaxNodes. */
  const INFINITE: nat := 0xFFFF_FFFF

  /** A node state table: its entries up to the first "END" are the settable states. */
  type StateTable = t: seq<string> | "END" in t witness ["END"]

  /** How a field's text becomes its value. */
  datatype Coercion =
    | AsText
    | AsUint32
      /** YES is 1 and NO is 0 (any case), anything else a 16-bit number. */
    | FlagOrUint16
      /** INFINITE (any case), or else a 32-bit number. */
    | Uint32OrInfinite
      /**
       One of names (any case), the value being its position; anything else
       is refused, naming the field and the values it advertises.
       */
    | Choice(field: string, names: seq<string>, advertised: seq<string>)
    | NodeState(table: StateTable)

  /**
   A field of a grammar: tokens whose first matchLen characters equal the
   key's, up to case, belong to it, and its text starts at offset.
   */
  datatype Field = Field(key: string, matchLen: nat, offset: nat, coercion: Coercion)

  /** A field matched on its whole key, its text following the key. */
  function KeyField(key: string, c: Coercion): Field {
    Field(key, |key|, |key|, c)
  }

  /**
   A grammar given as its keys and, position by position, their coercions;
   every field is matched on its whole key.
   */
  function Fields(keys: seq<string>, coercions: seq<Coercion>): (g: seq<Field>)
    requires |keys| == |coercions|
    ensures |g| == |keys|
    ensures forall i :: 0 <= i < |g| ==> g[i] == KeyField(keys[i], coercions[i])
  {
    seq(|keys|, i requires 0 <= i < |keys| => KeyField(keys[i], coercions[i]))
  }

  const YesNo: seq<string> := ["NO", "YES"]

  /** The job fields' keys, in the order they are tried. */
  const JobKeys: seq<string> := [
    "JobId=", "TimeLimit=", "Priority=", "ReqProcs=", "MinNodes=", "MinProcs=", "MinMemory=",
    "MinTmpDisk=", "Partition=", "Name=", "Shared=", "Contiguous=", "ReqNodeList=", "Features="
  ]

  const JobCoercions: seq<Coercion> := [
    AsUint32, AsUint32, AsUint32, AsUint32, AsUint32, AsUint32, AsUint32,
    AsUint32, AsText, AsText, FlagOrUint16, FlagOrUint16, AsText, AsText
  ]

  const JobGrammar: seq<Field> := Fields(JobKeys, JobCoercions)

  const NodeKeys: seq<string> := ["NodeName=", "State="]

  function NodeGrammar(table: StateTable): seq<Field> {
    Fields(NodeKeys, [AsText, NodeState(table)])
  }

  /** The partition fields' keys, in the order they are tried. */
  const PartKeys: seq<string> := [
    "PartitionName=", "MaxTime=", "MaxNodes=", "Default=", "RootOnly=", "Shared=", "State=",
    "Nodes=", "AllowGroups="
  ]

  const PartCoercions: seq<Coercion> := [
    AsText,
    Uint32OrInfinite,
    Uint32OrInfinite,
    Choice("Default", YesNo, ["YES", "NO"]),
    Choice("RootOnly", YesNo, ["YES", "NO"]),
    Choice("Shared", ["NO", "YES", "FORCE"], ["YES", "NO", "FORCE"]),
    Choice("State", ["DOWN", "UP"], ["UP", "DOWN"]),
    AsText,
    AsText
  ]

  const PartGrammar: seq<Field> := Fields(PartKeys, PartCoercions)

  /** The position of the RootOnly field among the partition fields. */
  const RootOnlyAt: nat := 4

  /**
   The partition fields as written: RootOnly= is recognised on its first 4
   characters but its text is still read from offset 9.
   */
  const PartGrammarAsWritten: seq<Field> :=
    PartGrammar[RootOnlyAt := Field("RootOnly=", 4, 9, PartGrammar[RootOnlyAt].coercion)]

  // ---------------------------------------------------------------------
  // Coercions

  datatype Coerced = Accept(value: Value) | Refuse(hint: Hint)

  /** The position of the first name equal to text up to case. */
  function ChoiceIndex(names: seq<string>, text: string): Option<nat> {
    Display.FirstMatch(names, (name: string) => StrCaseEq(text, name))
  }

  /** The position of the first "END" entry of a state table. */
  function EndIndex(table: StateTable): (e: nat)
    ensures e < |table| && table[e] == "END"
    ensures forall k :: 0 <= k < e ==> table[k] != "END"
  {
    var found := Display.FirstMatch(table, (s: string) => s == "END");
    assert found.Some? by {
      var k :| 0 <= k < |table| && table[k] == "END";
    }
    found.value
  }

  /**
   The state lookup from entry j on: an "END" entry aborts before any
   entry after it is compared, whatever the text.
   */
  function StateFrom(table: StateTable, text: string, j: nat): (r: Coerced)
    requires j <= EndIndex(table)
    ensures r.Refuse? ==> r.hint == ValidStates(table)
    ensures r.Refuse? <==> forall k :: j <= k < EndIndex(table) ==> !StrCaseEq(table[k], text)
    ensures r.Accept? ==> r.value.Num? && j <= r.value.n < EndIndex(table)
                          && StrCaseEq(table[r.value.n], text)
                          && forall k :: j <= k < r.value.n ==> !StrCaseEq(table[k], text)
    decreases |table| - j
  {
    if table[j] == "END" then Refuse(ValidStates(table))
    else if StrCaseEq(table[j], text) then Accept(Num(j))
    else StateFrom(table, text, j + 1)
  }

  /**
   Coerces a field's text. Numeric coercions never refuse (text without
   digits reads as 0); only a choice and a node state can.
   */
  function Coerce(c: Coercion, text: string): (r: Coerced)
    ensures r.Refuse? ==> c.Choice? || c.NodeState?
    ensures (c.AsUint32? || c.Uint32OrInfinite?) ==> r.Accept? && r.value.Num? && r.value.n < UINT32_RANGE
    ensures c.FlagOrUint16? ==> r.Accept? && r.value.Num? && r.value.n < UINT16_RANGE
    ensures c.AsText? ==> r == Accept(Text(text))
    ensures c.AsUint32? ==> r == Accept(Num(ParseUint32(text)))
    ensures c.Uint32OrInfinite? && !StrCaseEq(text, "INFINITE") ==> r == Accept(Num(ParseUint32(text)))
    ensures c.FlagOrUint16? && !StrCaseEq(text, "YES") && !StrCaseEq(text, "NO") ==>
              r == Accept(Num(ToUint16(StrToL(text).value)))
    ensures c.Choice? ==> (r.Refuse? <==> forall k :: 0 <= k < |c.names| ==> !StrCaseEq(text, c.names[k]))
    ensures c.Choice? && r.Refuse? ==> r.hint == Acceptable(c.field, c.advertised)
    ensures c.Choice? && r.Accept? ==> r.value.Num? && r.value.n < |c.names| && StrCaseEq(text, c.names[r.value.n])
    ensures c.NodeState? ==> (r.Refuse? <==> forall k :: 0 <= k < EndIndex(c.table) ==> !StrCaseEq(c.table[k], text))
  {
    match c
    case AsText => Accept(Text(text))
    case AsUint32 => Accept(Num(ParseUint32(text)))
    case FlagOrUint16 =>
      if StrCaseEq(text, "YES") then Accept(Num(1))
      else if StrCaseEq(text, "NO") then Accept(Num(0))
      else Accept(Num(ToUint16(StrToL(text).value)))
    case Uint32OrInfinite =>
      if StrCaseEq(text, "INFINITE") then Accept(Num(INFINITE)) else Accept(Num(ParseUint32(text)))
    case Choice(field, names, advertised) =>
      (match ChoiceIndex(names, text)
       case Some(k) => Accept(Num(k))
       case None => Refuse(Acceptable(field, advertised)))
    case NodeState(table) => StateFrom(table, text, 0)
  }

  /** A digit never compares equal, up to case, to a letter. */
  lemma DecimalIsNoWord(n: nat, word: string)
    requires |word| > 0 && !IsDigit(word[0])
    ensures !StrCaseEq(Decimal(n), word)
  {
    DecimalIsDigits(n);
    assert IsDigit(Decimal(n)[0]);
  }

  /** Numbers written in decimal read back as themselves. */
  lemma NumberRoundTrip(n: nat)
    requires n < UINT32_RANGE
    ensures Coerce(AsUint32, Decimal(n)) == Accept(Num(n))
    ensures Coerce(Uint32OrInfinite, Decimal(n)) == Accept(Num(n))
    ensures n < UINT16_RANGE ==> Coerce(FlagOrUint16, Decimal(n)) == Accept(Num(n))
  {
    ParseUint32OfDecimal(n);
    DecimalIsNoWord(n, "INFINITE");
    DecimalIsNoWord(n, "YES");
    DecimalIsNoWord(n, "NO");
    DecimalRoundTrip(n, []);
    assert Decimal(n) + [] == Decimal(n);
  }

  /**
   The words YES, NO and INFINITE are read in any case; any other text is
   read as a number.
   */
  lemma WordsInAnyCase(text: string)
    requires NUL !in text
    ensures LowerSeq(text) == "yes" ==> Coerce(FlagOrUint16, text) == Accept(Num(1))
    ensures LowerSeq(text) == "no" ==> Coerce(FlagOrUint16, text) == Accept(Num(0))
    ensures LowerSeq(text) != "yes" && LowerSeq(text) != "no" ==>
              Coerce(FlagOrUint16, text) == Accept(Num(ToUint16(StrToL(text).value)))
    ensures LowerSeq(text) == "infinite" ==> Coerce(Uint32OrInfinite, text) == Accept(Num(INFINITE))
    ensures LowerSeq(text) != "infinite" ==> Coerce(Uint32OrInfinite, text) == Accept(Num(ParseUint32(text)))
  {
    CaseEqMeaning(text, "YES");
    CaseEqMeaning(text, "NO");
    CaseEqMeaning(text, "INFINITE");
    assert LowerSeq("YES") == "yes";
    assert LowerSeq("NO") == "no";
    assert LowerSeq("INFINITE") == "infinite";
  }

  /** The names of a choice differ beyond case. */
  predicate DistinctUpToCase(names: seq<string>) {
    forall i, j :: 0 <= i < j < |names| ==> !StrCaseEq(names[i], names[j])
  }

  /** Writing a choice's k-th name reads back as k. */
  lemma ChoiceRoundTrip(field: string, names: seq<string>, advertised: seq<string>, k: nat)
    requires k < |names| && DistinctUpToCase(names)
    requires forall i :: 0 <= i < |names| ==> NUL !in names[i]
    ensures Coerce(Choice(field, names, advertised), names[k]) == Accept(Num(k))
  {
    forall i | 0 <= i < |names|
      ensures StrCaseEq(names[k], names[i]) <==> i == k
    {
      CaseEqMeaning(names[k], names[i]);
      CaseEqMeaning(names[i], names[k]);
    }
  }

  /** Writing the k-th settable state name reads back as state k. */
  lemma StateRoundTrip(table: StateTable, k: nat)
    requires k < EndIndex(table) && DistinctUpToCase(table[..EndIndex(table)])
    requires forall i :: 0 <= i < EndIndex(table) ==> NUL !in table[i]
    ensures Coerce(NodeState(table), table[k]) == Accept(Num(k))
  {
    var e := EndIndex(table);
    forall i | 0 <= i < e
      ensures StrCaseEq(table[i], table[k]) <==> i == k
    {
      CaseEqMeaning(table[i], table[k]);
      CaseEqMeaning(table[k], table[i]);
      assert table[..e][i] == table[i] && table[..e][k] == table[k];
    }
  }

  /** Every value a choice advertises is accepted, and every accepted name is advertised. */
  lemma AdvertisedChoicesAreAccepted()
    ensures forall i :: 0 <= i < |PartCoercions| && PartCoercions[i].Choice? ==>
              multiset(PartCoercions[i].advertised) == multiset(PartCoercions[i].names)
  {
    PartChoicesAreAtThreeToSix();
    ChoicesAtThreeToSixAdvertiseTheirNames();
  }

  /** The choice coercions of the partition fields are those at positions 3 to 6. */
  lemma PartChoicesAreAtThreeToSix()
    ensures forall i :: 0 <= i < |PartCoercions| && PartCoercions[i].Choice? ==> 3 <= i < 7
  {
  }

  lemma ChoicesAtThreeToSixAdvertiseTheirNames()
    ensures forall i :: 3 <= i < 7 ==>
              PartCoercions[i].Choice? && multiset(PartCoercions[i].advertised) == multiset(PartCoercions[i].names)
  {
    FirstTwoSwapped("NO", "YES", []);
    FirstTwoSwapped("NO", "YES", ["FORCE"]);
    FirstTwoSwapped("DOWN", "UP", []);
  }

  /** Listing the first two names the other way round lists the same names. */
  lemma FirstTwoSwapped(a: string, b: string, rest: seq<string>)
    ensures multiset([a, b] + rest) == multiset([b, a] + rest)
  {
  }

  // ---------------------------------------------------------------------
  // Reading one token

  /**
   What a token does under a grammar: sets a field, is refused (no field
   claims it, or its field's coercion refuses its text), or has its text
   start past the token's end.
   */
  datatype Verdict = Set(key: string, value: Value) | Reject(hint: Hint) | PastEnd

  /** Token t belongs to field f. */
  predicate Claims(f: Field, t: string) {
    StrNCaseEq(t, f.key, f.matchLen)
  }

  /** The first field of g to which t belongs. */
  function Claimant(g: seq<Field>, t: string): (r: Option<nat>)
    ensures r.Some? ==> r.value < |g| && Claims(g[r.value], t)
    ensures r.Some? ==> forall j :: 0 <= j < r.value ==> !Claims(g[j], t)
    ensures r.None? <==> forall j :: 0 <= j < |g| ==> !Claims(g[j], t)
  {
    Display.FirstMatch(g, (f: Field) => Claims(f, t))
  }

  function ReadToken(g: seq<Field>, t: string): (r: Verdict)
    ensures r.Set? ==> exists i :: 0 <= i < |g| && g[i].key == r.key
    ensures r.Reject? && Claimant(g, t).None? ==> r.hint == RequestAborted
  {
    match Claimant(g, t)
    case None => Reject(RequestAborted)
    case Some(i) =>
      if g[i].offset > |t| then PastEnd
      else match Coerce(g[i].coercion, t[g[i].offset..])
        case Accept(v) => Set(g[i].key, v)
        case Refuse(h) => Reject(h)
  }

  /**
   A grammar whose fields are matched on their whole keys, each key ending
   in its only '='.
   */
  predicate WellFormedField(f: Field) {
    && f.matchLen == |f.key| && f.offset == |f.key|
    && |f.key| > 0 && NUL !in f.key
    && f.key[|f.key| - 1] == '='
    && '=' !in f.key[..|f.key| - 1]
  }

  predicate WellFormed(g: seq<Field>) {
    forall i :: 0 <= i < |g| ==> WellFormedField(g[i])
  }

  /** No two keys of the grammar compare equal under strcasecmp. */
  predicate DistinctKeys(g: seq<Field>) {
    forall i, j :: 0 <= i < j < |g| ==> !StrCaseEq(g[i].key, g[j].key)
  }

  /** In a well-formed grammar no token's text starts past its end. */
  lemma WellFormedReadsWithinToken(g: seq<Field>, t: string)
    requires WellFormed(g) && NUL !in t
    ensures !ReadToken(g, t).PastEnd?
  {
    match Claimant(g, t)
    case None =>
    case Some(i) =>
      PrefixMatchMeaning(t, g[i].key, g[i].matchLen);
  }

  /** Only '=' lower-cases to '='. */
  lemma LowerKeepsEquals(c: char)
    ensures Lower(c) == '=' <==> c == '='
  {
  }

  /**
   A token made of a key and some text belongs, among well-formed keys that
   differ beyond case, to that key's field alone.
   */
  lemma KeyClaimsOnlyItself(mine: Field, other: Field, text: string)
    requires WellFormedField(mine) && WellFormedField(other) && NUL !in text
    ensures Claims(mine, mine.key + text)
    ensures !StrCaseEq(mine.key, other.key) ==> !Claims(other, mine.key + text)
  {
    var k, key, t := mine.key, other.key, mine.key + text;
    assert NUL !in t by {
      assert forall c :: c in t ==> c in k || c in text;
    }
    PrefixMatchMeaning(t, k, |k|);
    assert t[..|k|] == k;
    PrefixMatchMeaning(t, key, |key|);
    CaseEqMeaning(k, key);
    if LowerSeq(k) != LowerSeq(key) && |key| <= |t| && LowerSeq(t[..|key|]) == LowerSeq(key) {
      if |key| <= |k| {
        // the other key's '=' meets a character of this key, which must be its '='
        assert Lower(t[|key| - 1]) == Lower(key[|key| - 1]);
        LowerKeepsEquals(k[|key| - 1]);
      } else {
        // this key's '=' meets a character of the other key before its own '='
        assert Lower(t[|k| - 1]) == Lower(key[|k| - 1]);
        LowerKeepsEquals(key[|k| - 1]);
      }
    }
  }

  /**
   A setting written as key and text reads back as that setting: the key
   selects its own field, whose coercion decides the value.
   */
  lemma SettingRoundTrip(g: seq<Field>, i: nat, text: string, v: Value)
    requires WellFormed(g) && DistinctKeys(g) && i < |g| && NUL !in text
    requires Coerce(g[i].coercion, text) == Accept(v)
    ensures ReadToken(g, g[i].key + text) == Set(g[i].key, v)
  {
    var t := g[i].key + text;
    forall j | 0 <= j < |g|
      ensures Claims(g[j], t) <==> j == i
    {
      if j != i {
        CaseEqMeaning(g[i].key, g[j].key);
        CaseEqMeaning(g[j].key, g[i].key);
      }
      KeyClaimsOnlyItself(g[i], g[j], text);
    }
    assert Claimant(g, t) == Some(i);
    assert t[g[i].offset..] == text;
  }

  /** Keys that make well-formed fields: non-empty, NUL-free, each ending in its only '='. */
  predicate WellFormedKeys(keys: seq<string>) {
    forall i :: 0 <= i < |keys| ==>
      && |keys[i]| > 0 && NUL !in keys[i]
      && keys[i][|keys[i]| - 1] == '=' && '=' !in keys[i][..|keys[i]| - 1]
  }

  /**
   A grammar built from well-formed keys that differ beyond case is well
   formed, with distinct keys, whatever the coercions.
   */
  lemma FieldsAreSound(keys: seq<string>, coercions: seq<Coercion>)
    requires |keys| == |coercions| && WellFormedKeys(keys) && DistinctUpToCase(keys)
    ensures WellFormed(Fields(keys, coercions)) && DistinctKeys(Fields(keys, coercions))
  {
  }

  lemma JobKeysWellFormed()
    ensures WellFormedKeys(JobKeys)
  {
    JobKeysAreTerminated();
    JobKeysEndInEquals();
  }

  lemma JobKeysAreTerminated()
    ensures forall i :: 0 <= i < |JobKeys| ==> |JobKeys[i]| > 0 && NUL !in JobKeys[i]
  {
  }

  lemma JobKeysEndInEquals()
    ensures forall i :: 0 <= i < |JobKeys| ==>
              |JobKeys[i]| > 0 && JobKeys[i][|JobKeys[i]| - 1] == '=' && '=' !in JobKeys[i][..|JobKeys[i]| - 1]
  {
  }

  lemma JobKeysDistinct()
    ensures forall i, j :: 0 <= i < j < |JobKeys| ==> !StrCaseEq(JobKeys[i], JobKeys[j])
  {
  }

  lemma PartKeysWellFormed()
    ensures WellFormedKeys(PartKeys)
  {
    PartKeysAreTerminated();
    PartKeysEndInEquals();
  }

  lemma PartKeysAreTerminated()
    ensures forall i :: 0 <= i < |PartKeys| ==> |PartKeys[i]| > 0 && NUL !in PartKeys[i]
  {
  }

  lemma PartKeysEndInEquals()
    ensures forall i :: 0 <= i < |PartKeys| ==>
              |PartKeys[i]| > 0 && PartKeys[i][|PartKeys[i]| - 1] == '=' && '=' !in PartKeys[i][..|PartKeys[i]| - 1]
  {
  }

  lemma PartKeysDistinct()
    ensures forall i, j :: 0 <= i < j < |PartKeys| ==> !StrCaseEq(PartKeys[i], PartKeys[j])
  {
  }

  /** The job grammar is well formed, with keys distinct beyond case. */
  lemma JobGrammarIsSound()
    ensures WellFormed(JobGrammar) && DistinctKeys(JobGrammar)
  {
    JobKeysWellFormed();
    JobKeysDistinct();
    FieldsAreSound(JobKeys, JobCoercions);
  }

  /** The partition grammar is well formed, with keys distinct beyond case. */
  lemma PartGrammarIsSound()
    ensures WellFormed(PartGrammar) && DistinctKeys(PartGrammar)
  {
    PartKeysWellFormed();
    PartKeysDistinct();
    FieldsAreSound(PartKeys, PartCoercions);
  }

  /** The node grammar is well formed, with keys distinct beyond case. */
  lemma NodeGrammarIsSound(table: StateTable)
    ensures WellFormed(NodeGrammar(table)) && DistinctKeys(NodeGrammar(table))
  {
    assert WellFormedKeys(NodeKeys) && DistinctUpToCase(NodeKeys);
    FieldsAreSound(NodeKeys, [AsText, NodeState(table)]);
  }

  /** A token whose first letter differs from a field's key is not that field's. */
  lemma FirstLetterRulesOut(f: Field, t: string)
    requires |t| > 0 && |f.key| > 0 && f.matchLen > 0 && Lower(t[0]) != Lower(f.key[0])
    ensures !Claims(f, t)
  {
  }

  lemma ClaimantIs(g: seq<Field>, t: string, i: nat)
    requires i < |g| && Claims(g[i], t)
    requires forall j :: 0 <= j < i ==> !Claims(g[j], t)
    ensures Claimant(g, t) == Some(i)
  {
  }

  /**
   The defect of the RootOnly field as written: "Root=NO" is claimed by
   RootOnly= on its first four characters, and its text is then read from
   offset 9, past the end of the seven-character token; a token such as
   "Rootless=NO" sets RootOnly. Matched on its whole key, the field refuses
   both tokens like any unknown key.
   */
  lemma RootOnlyReadsPastToken()
    ensures ReadToken(PartGrammarAsWritten, "Root=NO") == PastEnd
    ensures ReadToken(PartGrammarAsWritten, "Rootless=NO") == Set("RootOnly=", Num(0))
    ensures ReadToken(PartGrammar, "Root=NO") == Reject(RequestAborted)
    ensures ReadToken(PartGrammar, "Rootless=NO") == Reject(RequestAborted)
  {
    RootAsWritten();
    RootlessAsWritten();
    RootCorrected();
    RootlessCorrected();
  }

  lemma RootAsWritten()
    ensures ReadToken(PartGrammarAsWritten, "Root=NO") == PastEnd
  {
    RootOnlyClaimsOnFourLetters("Root=NO");
  }

  lemma RootlessAsWritten()
    ensures ReadToken(PartGrammarAsWritten, "Rootless=NO") == Set("RootOnly=", Num(0))
  {
    RootOnlyClaimsOnFourLetters("Rootless=NO");
    assert PartGrammarAsWritten[RootOnlyAt] == Field("RootOnly=", 4, 9, PartCoercions[RootOnlyAt]);
    assert "Rootless=NO"[9..] == "NO";
    RootOnlyReadsNo();
  }

  lemma RootOnlyReadsNo()
    ensures Coerce(PartCoercions[RootOnlyAt], "NO") == Accept(Num(0))
  {
    ChoiceRoundTrip("RootOnly", YesNo, ["YES", "NO"], 0);
  }

  lemma RootCorrected()
    ensures ReadToken(PartGrammar, "Root=NO") == Reject(RequestAborted)
  {
    assert !StrNCaseEq("Root=NO", "RootOnly=", 9);
    NoFieldClaims(PartGrammar, "Root=NO");
  }

  lemma RootlessCorrected()
    ensures ReadToken(PartGrammar, "Rootless=NO") == Reject(RequestAborted)
  {
    assert !StrNCaseEq("Rootless=NO", "RootOnly=", 9);
    NoFieldClaims(PartGrammar, "Rootless=NO");
  }

  /** As written, any token starting "Root" in any case is the RootOnly field's. */
  lemma RootOnlyClaimsOnFourLetters(t: string)
    requires |t| >= 4 && Lower(t[0]) == 'r' && StrNCaseEq(t, "RootOnly=", 4)
    ensures Claimant(PartGrammarAsWritten, t) == Some(RootOnlyAt)
  {
    var written := PartGrammarAsWritten;
    forall j | 0 <= j < RootOnlyAt
      ensures !Claims(written[j], t)
    {
      FirstLetterRulesOut(written[j], t);
    }
    assert written[RootOnlyAt] == Field("RootOnly=", 4, 9, Choice("RootOnly", YesNo, ["YES", "NO"]));
    ClaimantIs(written, t, RootOnlyAt);
  }

  /** A token starting with 'r' that RootOnly= refuses belongs to no partition field. */
  lemma NoFieldClaims(g: seq<Field>, t: string)
    requires g == PartGrammar && |t| > 0 && Lower(t[0]) == 'r' && !StrNCaseEq(t, "RootOnly=", 9)
    ensures Claimant(g, t) == None
  {
    forall j | 0 <= j < |g| && j != RootOnlyAt
      ensures !Claims(g[j], t)
    {
      FirstLetterRulesOut(g[j], t);
    }
    assert g[RootOnlyAt].key == "RootOnly=" && g[RootOnlyAt].matchLen == 9;
  }



  // ---------------------------------------------------------------------
  // Compiling a command

  /**
   The outcome of reading every token: the settings, or the position of the
   first token refused or read past its end.
   */
  datatype Compiled =
    | Settings(settings: map<string, Value>)
    | Rejected(at: nat, hint: Hint)
    | Unspecified(at: nat)

  /** The same outcome for a command with one more token in front. */
  function Later(c: Compiled): Compiled {
    match c
    case Settings(m) => c
    case Rejected(at, h) => Rejected(at + 1, h)
    case Unspecified(at) => Unspecified(at + 1)
  }

  /** The position of the token that stopped a compilation. */
  function StoppedAt(c: Compiled): nat {
    match c
    case Settings(_) => 0
    case Rejected(at, _) => at
    case Unspecified(at) => at
  }

  /**
   Reads the tokens in order, with read giving each token's verdict, into
   the settings acc. The first token not setting a field stops the
   reading, and no settings survive it.
   */
  function CompileWith(read: string -> Verdict, tokens: seq<string>, acc: map<string, Value>): (r: Compiled)
    ensures r.Settings? <==> forall i :: 0 <= i < |tokens| ==> read(tokens[i]).Set?
    ensures r.Rejected? ==> r.at < |tokens| && read(tokens[r.at]) == Reject(r.hint)
    ensures r.Unspecified? ==> r.at < |tokens| && read(tokens[r.at]) == PastEnd
    ensures !r.Settings? ==> forall i :: 0 <= i < StoppedAt(r) ==> read(tokens[i]).Set?
    decreases |tokens|
  {
    if |tokens| == 0 then Settings(acc)
    else
      match read(tokens[0])
      case Set(key, v) =>
        var rest := CompileWith(read, tokens[1..], acc[key := v]);
        assert forall i :: 1 <= i < |tokens| ==> tokens[i] == tokens[1..][i - 1];
        Later(rest)
      case Reject(h) => Rejected(0, h)
      case PastEnd => Unspecified(0)
  }

  /** Reads every token of a command against grammar g. */
  function Compile(g: seq<Field>, tokens: seq<string>): (r: Compiled)
    ensures r.Settings? <==> forall i :: 0 <= i < |tokens| ==> ReadToken(g, tokens[i]).Set?
    ensures r.Rejected? ==> r.at < |tokens| && ReadToken(g, tokens[r.at]) == Reject(r.hint)
    ensures r.Unspecified? ==> r.at < |tokens| && ReadToken(g, tokens[r.at]) == PastEnd
    ensures !r.Settings? ==> forall i :: 0 <= i < StoppedAt(r) ==> ReadToken(g, tokens[i]).Set?
  {
    CompileWith(t => ReadToken(g, t), tokens, map[])
  }

  /** The value the last token setting key gives it, if any token does. */
  function LastWrite(read: string -> Verdict, tokens: seq<string>, key: string): Option<Value>
    decreases |tokens|
  {
    if |tokens| == 0 then None
    else
      var later := LastWrite(read, tokens[1..], key);
      if later.Some? then later
      else
        var verdict := read(tokens[0]);
        if verdict.Set? && verdict.key == key then Some(verdict.value) else None
  }

  /**
   Later tokens override earlier ones: each setting of a compiled command
   is the one its last token gave, and the settings already held survive
   only where no token overrides them.
   */
  lemma {:induction false} LastWriteWinsWith(read: string -> Verdict, tokens: seq<string>,
                                             acc: map<string, Value>, key: string)
    requires CompileWith(read, tokens, acc).Settings?
    ensures var m := CompileWith(read, tokens, acc).settings;
            var last := LastWrite(read, tokens, key);
            && (key in m <==> last.Some? || key in acc)
            && (key in m ==> m[key] == if last.Some? then last.value else acc[key])
    decreases |tokens|
  {
    if |tokens| > 0 {
      var verdict := read(tokens[0]);
      LastWriteWinsWith(read, tokens[1..], acc[verdict.key := verdict.value], key);
    }
  }

  /** Each setting of a compiled command is the value its last token gave. */
  lemma LastWriteWins(g: seq<Field>, tokens: seq<string>, key: string)
    requires Compile(g, tokens).Settings?
    ensures var m := Compile(g, tokens).settings;
            var last := LastWrite(t => ReadToken(g, t), tokens, key);
            && (key in m <==> last.Some?)
            && (key in m ==> m[key] == last.value)
  {
    LastWriteWinsWith(t => ReadToken(g, t), tokens, map[], key);
  }

  // ---------------------------------------------------------------------
  // The update command

  datatype Target = NodeTarget | PartitionTarget | JobTarget

  /** The entity a token names through its anchor, anchors tried in this order. */
  function AnchorOf(t: string): Option<Target> {
    if StrNCaseEq(t, "NodeName=", 9) then Some(NodeTarget)
    else if StrNCaseEq(t, "PartitionName=", 14) then Some(PartitionTarget)
    else if StrNCaseEq(t, "JobId=", 6) then Some(JobTarget)
    else None
  }

  /** The entity the first anchored token names. */
  function Anchor(tokens: seq<string>): (r: Option<Target>)
    ensures r.None? <==> forall i :: 0 <= i < |tokens| ==> AnchorOf(tokens[i]).None?
    ensures r.Some? ==> exists i :: 0 <= i < |tokens| && AnchorOf(tokens[i]) == r
                          && forall j :: 0 <= j < i ==> AnchorOf(tokens[j]).None?
  {
    match Display.FirstMatch(tokens, (t: string) => AnchorOf(t).Some?)
    case None => None
    case Some(i) => AnchorOf(tokens[i])
  }

  /** The fields of each entity, with part as the partition fields. */
  function GrammarWith(target: Target, table: StateTable, part: seq<Field>): seq<Field> {
    match target
    case NodeTarget => NodeGrammar(table)
    case PartitionTarget => part
    case JobTarget => JobGrammar
  }

  /** The fields of each entity as written, RootOnly= recognised on four characters. */
  function GrammarOf(target: Target, table: StateTable): seq<Field> {
    GrammarWith(target, table, PartGrammarAsWritten)
  }

  /** The fields of each entity with RootOnly= matched on its whole key. */
  function GrammarOfCorrected(target: Target, table: StateTable): seq<Field> {
    GrammarWith(target, table, PartGrammar)
  }

  /** What the manager is asked to change: one entity, every setting at once. */
  datatype Directive = Directive(target: Target, settings: map<string, Value>)

  datatype Outcome =
    | NoEntity
    | Aborted(token: string, hint: Hint)
    | Undefined(token: string)
    | Send(directive: Directive)

  /**
   Compiles the words after "update", with part as the partition fields. A
   directive is sent only when an anchor names the entity and every word
   sets a field of its grammar, anchors of other entities included.
   */
  function UpdateWith(args: seq<string>, table: StateTable, part: seq<Field>): (r: Outcome)
    ensures r.NoEntity? <==> forall i :: 0 <= i < |args| ==> AnchorOf(args[i]).None?
    ensures r.Send? ==> Anchor(args) == Some(r.directive.target)
    ensures r.Send? ==> forall i :: 0 <= i < |args| ==>
              ReadToken(GrammarWith(r.directive.target, table, part), args[i]).Set?
    ensures r.Send? ==> r.directive.settings == Compile(GrammarWith(r.directive.target, table, part), args).settings
    ensures r.Aborted? ==>
              && r.token in args && Anchor(args).Some?
              && ReadToken(GrammarWith(Anchor(args).value, table, part), r.token) == Reject(r.hint)
    ensures r.Undefined? ==>
              && r.token in args && Anchor(args).Some?
              && ReadToken(GrammarWith(Anchor(args).value, table, part), r.token) == PastEnd
  {
    match Anchor(args)
    case None => NoEntity
    case Some(target) =>
      match Compile(GrammarWith(target, table, part), args)
      case Settings(m) => Send(Directive(target, m))
      case Rejected(at, h) => Aborted(args[at], h)
      case Unspecified(at) => Undefined(args[at])
  }

  /** The update as written. */
  function UpdateIt(args: seq<string>, table: StateTable): (r: Outcome)
    ensures r.NoEntity? <==> forall i :: 0 <= i < |args| ==> AnchorOf(args[i]).None?
    ensures r.Send? ==> Anchor(args) == Some(r.directive.target)
    ensures r.Send? ==> forall i :: 0 <= i < |args| ==>
              ReadToken(GrammarOf(r.directive.target, table), args[i]).Set?
    ensures r.Send? ==> r.directive.settings == Compile(GrammarOf(r.directive.target, table), args).settings
    ensures r.Aborted? ==>
              && r.token in args && Anchor(args).Some?
              && ReadToken(GrammarOf(Anchor(args).value, table), r.token) == Reject(r.hint)
    ensures r.Undefined? ==>
              && r.token in args && Anchor(args).Some?
              && ReadToken(GrammarOf(Anchor(args).value, table), r.token) == PastEnd
  {
    UpdateWith(args, table, PartGrammarAsWritten)
  }

  /** The update with RootOnly= matched on its whole key. */
  function UpdateItCorrected(args: seq<string>, table: StateTable): (r: Outcome)
    ensures r.NoEntity? <==> forall i :: 0 <= i < |args| ==> AnchorOf(args[i]).None?
    ensures r.Send? ==> Anchor(args) == Some(r.directive.target)
    ensures r.Send? ==> forall i :: 0 <= i < |args| ==>
              ReadToken(GrammarOfCorrected(r.directive.target, table), args[i]).Set?
    ensures r.Send? ==> r.directive.settings == Compile(GrammarOfCorrected(r.directive.target, table), args).settings
    ensures r.Aborted? ==>
              && r.token in args && Anchor(args).Some?
              && ReadToken(GrammarOfCorrected(Anchor(args).value, table), r.token) == Reject(r.hint)
  {
    UpdateWith(args, table, PartGrammar)
  }

  /**
   A sent directive carries, for each key, the value the last word setting
   that key gave it, and no key that no word sets.
   */
  lemma SentSettingsAreLastWrites(args: seq<string>, table: StateTable, part: seq<Field>, key: string)
    ensures var r := UpdateWith(args, table, part);
            r.Send? ==>
              var last := LastWrite(t => ReadToken(GrammarWith(r.directive.target, table, part), t), args, key);
              && (key in r.directive.settings <==> last.Some?)
              && (key in r.directive.settings ==> r.directive.settings[key] == last.value)
  {
    var r := UpdateWith(args, table, part);
    if r.Send? {
      LastWriteWins(GrammarWith(r.directive.target, table, part), args, key);
    }
  }

  /**
   The tokenizer never yields a word containing a NUL, so with RootOnly=
   matched on its whole key an update never reads past a token's end.
   */
  lemma UpdatesAreDefined(args: seq<string>, table: StateTable)
    requires forall i :: 0 <= i < |args| ==> NUL !in args[i]
    ensures !UpdateItCorrected(args, table).Undefined?
  {
    JobGrammarIsSound();
    PartGrammarIsSound();
    NodeGrammarIsSound(table);
    if Anchor(args).Some? {
      var g := GrammarOfCorrected(Anchor(args).value, table);
      var c := Compile(g, args);
      if c.Unspecified? {
        WellFormedReadsWithinToken(g, args[c.at]);
      }
    }
  }

  /**
   As written, the only token read past its end is one RootOnly= claims on
   its first four characters while being shorter than its whole key.
   */
  lemma PastEndOnlyAtRootOnly(t: string)
    requires NUL !in t
    ensures ReadToken(PartGrammarAsWritten, t) == PastEnd <==>
              Claimant(PartGrammarAsWritten, t) == Some(RootOnlyAt) && |t| < 9
  {
    var g := PartGrammarAsWritten;
    match Claimant(g, t)
    case None =>
    case Some(i) =>
      if i == RootOnlyAt {
        assert g[i].offset == 9;
      } else {
        PartGrammarIsSound();
        assert g[i] == PartGrammar[i];
        PrefixMatchMeaning(t, g[i].key, g[i].matchLen);
      }
  }

  /** A compilation stops at the first token that does not set a field. */
  lemma StopsAtFirst(g: seq<Field>, args: seq<string>, i: nat)
    requires i < |args| && !ReadToken(g, args[i]).Set?
    requires forall j :: 0 <= j < i ==> ReadToken(g, args[j]).Set?
    ensures !Compile(g, args).Settings? && StoppedAt(Compile(g, args)) == i
  {
  }

  /**
   An update as written is undefined exactly when it names a partition and
   the first word not setting a field is a short one RootOnly= claims.
   */
  lemma UndefinedOnlyAtRootOnly(args: seq<string>, table: StateTable)
    requires forall i :: 0 <= i < |args| ==> NUL !in args[i]
    ensures UpdateIt(args, table).Undefined? <==>
              && Anchor(args) == Some(PartitionTarget)
              && exists i :: 0 <= i < |args|
                   && (forall j :: 0 <= j < i ==> ReadToken(PartGrammarAsWritten, args[j]).Set?)
                   && Claimant(PartGrammarAsWritten, args[i]) == Some(RootOnlyAt) && |args[i]| < 9
  {
    match Anchor(args)
    case None =>
    case Some(target) =>
      if target == PartitionTarget {
        PartitionUndefinedIsUnspecified(args, table);
        UnspecifiedAtRootOnly(args);
      } else {
        OthersAreDefined(args, table, target);
      }
  }

  /** Job and node updates are never undefined: their grammars are well formed. */
  lemma OthersAreDefined(args: seq<string>, table: StateTable, target: Target)
    requires forall i :: 0 <= i < |args| ==> NUL !in args[i]
    requires Anchor(args) == Some(target) && target != PartitionTarget
    ensures !UpdateIt(args, table).Undefined?
  {
    var g := GrammarOf(target, table);
    var c := Compile(g, args);
    JobGrammarIsSound();
    NodeGrammarIsSound(table);
    if c.Unspecified? {
      WellFormedReadsWithinToken(g, args[c.at]);
    }
  }

  lemma PartitionUndefinedIsUnspecified(args: seq<string>, table: StateTable)
    requires Anchor(args) == Some(PartitionTarget)
    ensures UpdateIt(args, table).Undefined? <==> Compile(PartGrammarAsWritten, args).Unspecified?
  {
    assert GrammarOf(PartitionTarget, table) == PartGrammarAsWritten;
  }

  /** The partition fields as written stop past a token's end exactly at a short RootOnly token. */
  lemma UnspecifiedAtRootOnly(args: seq<string>)
    requires forall i :: 0 <= i < |args| ==> NUL !in args[i]
    ensures Compile(PartGrammarAsWritten, args).Unspecified? <==>
              exists i :: 0 <= i < |args|
                && (forall j :: 0 <= j < i ==> ReadToken(PartGrammarAsWritten, args[j]).Set?)
                && Claimant(PartGrammarAsWritten, args[i]) == Some(RootOnlyAt) && |args[i]| < 9
  {
    var g := PartGrammarAsWritten;
    var c := Compile(g, args);
    if c.Unspecified? {
      PastEndOnlyAtRootOnly(args[c.at]);
    }
    if exists i :: 0 <= i < |args|
         && (forall j :: 0 <= j < i ==> ReadToken(g, args[j]).Set?)
         && Claimant(g, args[i]) == Some(RootOnlyAt) && |args[i]| < 9 {
      var i :| 0 <= i < |args|
         && (forall j :: 0 <= j < i ==> ReadToken(g, args[j]).Set?)
         && Claimant(g, args[i]) == Some(RootOnlyAt) && |args[i]| < 9;
      PastEndOnlyAtRootOnly(args[i]);
      StopsAtFirst(g, args, i);
    }
  }

  /** "PartitionName=p" anchors a partition and sets its name, in either grammar. */
  lemma PartitionTokenReads()
    ensures AnchorOf("PartitionName=p") == Some(PartitionTarget)
    ensures ReadToken(PartGrammar, "PartitionName=p") == Set("PartitionName=", Text("p"))
    ensures ReadToken(PartGrammarAsWritten, "PartitionName=p") == Set("PartitionName=", Text("p"))
  {
    var t := "PartitionName=p";
    assert StrNCaseEq(t, "PartitionName=", 14);
    assert !StrNCaseEq(t, "NodeName=", 9);
    assert PartGrammar[0] == KeyField("PartitionName=", AsText);
    ClaimantIs(PartGrammar, t, 0);
    ClaimantIs(PartGrammarAsWritten, t, 0);
    assert t[14..] == "p";
  }

  /** Two tokens, the first setting a field and the second read past its end, stop at the second. */
  lemma SecondTokenPastEnd(g: seq<Field>, args: seq<string>)
    requires |args| == 2 && ReadToken(g, args[0]).Set? && ReadToken(g, args[1]) == PastEnd
    ensures Compile(g, args) == Unspecified(1)
  {
    var read := t => ReadToken(g, t);
    var v := ReadToken(g, args[0]);
    assert args[1..] == [args[1]];
    assert CompileWith(read, [args[1]], map[v.key := v.value]) == Unspecified(0);
  }

  /** Two tokens that both set a field send those two settings. */
  lemma TwoTokensSet(g: seq<Field>, args: seq<string>)
    requires |args| == 2 && ReadToken(g, args[0]).Set? && ReadToken(g, args[1]).Set?
    ensures var a, b := ReadToken(g, args[0]), ReadToken(g, args[1]);
            Compile(g, args) == Settings(map[a.key := a.value][b.key := b.value])
  {
    var read := t => ReadToken(g, t);
    var a, b := ReadToken(g, args[0]), ReadToken(g, args[1]);
    assert args[1..] == [args[1]];
    assert [args[1]][1..] == [];
    assert CompileWith(read, [args[1]], map[a.key := a.value]) == Settings(map[a.key := a.value][b.key := b.value]);
  }

  /** A partition update as written, after its anchor, follows its compilation. */
  lemma PartitionUpdateAsWritten(args: seq<string>, table: StateTable)
    requires |args| > 0 && AnchorOf(args[0]) == Some(PartitionTarget)
    ensures var c := Compile(PartGrammarAsWritten, args);
            && (c.Settings? ==> UpdateIt(args, table) == Send(Directive(PartitionTarget, c.settings)))
            && (c.Unspecified? ==> UpdateIt(args, table) == Undefined(args[c.at]))
  {
    AnchorIsFirst(args, PartitionTarget);
    assert GrammarOf(PartitionTarget, table) == PartGrammarAsWritten;
  }

  /** A partition update with the whole key matched aborts at a refused token. */
  lemma PartitionUpdateCorrected(args: seq<string>, table: StateTable)
    requires |args| > 0 && AnchorOf(args[0]) == Some(PartitionTarget)
    ensures var c := Compile(PartGrammar, args);
            c.Rejected? ==> UpdateItCorrected(args, table) == Aborted(args[c.at], c.hint)
  {
    AnchorIsFirst(args, PartitionTarget);
    assert GrammarOfCorrected(PartitionTarget, table) == PartGrammar;
  }

  /** "Root=NO" after "PartitionName=p" reads past its end as written, and is refused when corrected. */
  lemma RootTokens(args: seq<string>)
    requires args == ["PartitionName=p", "Root=NO"]
    ensures AnchorOf(args[0]) == Some(PartitionTarget)
    ensures Compile(PartGrammarAsWritten, args) == Unspecified(1)
    ensures Compile(PartGrammar, args) == Rejected(1, RequestAborted)
  {
    PartitionTokenReads();
    RootAsWritten();
    RootCorrected();
    SecondTokenPastEnd(PartGrammarAsWritten, args);
    SecondTokenRefused(PartGrammar, args, RequestAborted);
  }

  /** "Rootless=NO" after "PartitionName=p" sets RootOnly as written, and is refused when corrected. */
  lemma RootlessTokens(args: seq<string>)
    requires args == ["PartitionName=p", "Rootless=NO"]
    ensures AnchorOf(args[0]) == Some(PartitionTarget)
    ensures Compile(PartGrammarAsWritten, args)
              == Settings(map["PartitionName=" := Text("p"), "RootOnly=" := Num(0)])
    ensures Compile(PartGrammar, args) == Rejected(1, RequestAborted)
  {
    PartitionTokenReads();
    RootlessAsWritten();
    RootlessCorrected();
    TwoTokensSet(PartGrammarAsWritten, args);
    SecondTokenRefused(PartGrammar, args, RequestAborted);
  }

  /**
   As written, "Root=NO" after a partition anchor reads past its end and
   leaves the update undefined; with the whole key matched it aborts the
   update like any unknown key.
   */
  lemma RootUpdate(table: StateTable)
    ensures UpdateIt(["PartitionName=p", "Root=NO"], table) == Undefined("Root=NO")
    ensures UpdateItCorrected(["PartitionName=p", "Root=NO"], table) == Aborted("Root=NO", RequestAborted)
  {
    var args := ["PartitionName=p", "Root=NO"];
    RootTokens(args);
    PartitionUpdateAsWritten(args, table);
    PartitionUpdateCorrected(args, table);
  }

  /**
   As written, "Rootless=NO" after a partition anchor sends RootOnly=NO;
   with the whole key matched it aborts the update.
   */
  lemma RootlessUpdate(table: StateTable)
    ensures UpdateIt(["PartitionName=p", "Rootless=NO"], table)
              == Send(Directive(PartitionTarget, map["PartitionName=" := Text("p"), "RootOnly=" := Num(0)]))
    ensures UpdateItCorrected(["PartitionName=p", "Rootless=NO"], table) == Aborted("Rootless=NO", RequestAborted)
  {
    var args := ["PartitionName=p", "Rootless=NO"];
    RootlessTokens(args);
    PartitionUpdateAsWritten(args, table);
    PartitionUpdateCorrected(args, table);
  }

  /**
   The anchor selects the grammar for every word: another entity's anchor
   after it is refused like any unknown key, and nothing is sent.
   */
  lemma ForeignAnchorAborts(table: StateTable, n: nat, name: string)
    requires n < UINT32_RANGE && NUL !in name
    ensures var job, node := "JobId=" + Decimal(n), "NodeName=" + name;
            && UpdateIt([node, job], table) == Aborted(job, RequestAborted)
            && UpdateIt([job, node], table) == Aborted(node, RequestAborted)
  {
    NodeThenJobAborts(table, "JobId=" + Decimal(n), "NodeName=" + name, n, name);
    JobThenNodeAborts(table, "JobId=" + Decimal(n), "NodeName=" + name, n, name);
  }

  /** A node update that goes on to name a job aborts on the job's token. */
  lemma NodeThenJobAborts(table: StateTable, job: string, node: string, n: nat, name: string)
    requires n < UINT32_RANGE && NUL !in name
    requires job == "JobId=" + Decimal(n) && node == "NodeName=" + name
    ensures UpdateIt([node, job], table) == Aborted(job, RequestAborted)
  {
    NodeTokenReads(table, name);
    NodeGrammarRefusesJobId(table, n);
    SecondTokenAborts([node, job], table, NodeTarget, RequestAborted);
  }

  /** A job update that goes on to name a node aborts on the node's token. */
  lemma JobThenNodeAborts(table: StateTable, job: string, node: string, n: nat, name: string)
    requires n < UINT32_RANGE && NUL !in name
    requires job == "JobId=" + Decimal(n) && node == "NodeName=" + name
    ensures UpdateIt([job, node], table) == Aborted(node, RequestAborted)
  {
    JobTokenReads(n);
    JobGrammarRefusesNodeName(name);
    SecondTokenAborts([job, node], table, JobTarget, RequestAborted);
  }

  /**
   An update of two tokens, the first anchoring the entity and setting a
   field of its grammar and the second refused by it, aborts on the second.
   */
  lemma SecondTokenAborts(args: seq<string>, table: StateTable, target: Target, h: Hint)
    requires |args| == 2 && AnchorOf(args[0]) == Some(target)
    requires ReadToken(GrammarOf(target, table), args[0]).Set?
    requires ReadToken(GrammarOf(target, table), args[1]) == Reject(h)
    ensures UpdateIt(args, table) == Aborted(args[1], h)
  {
    var g := GrammarOf(target, table);
    AnchorIsFirst(args, target);
    SecondTokenRefused(g, args, h);
    RejectedUpdateAborts(args, table, target, 1, h);
  }

  /** A command whose grammar refuses one of its tokens aborts on that token. */
  lemma RejectedUpdateAborts(args: seq<string>, table: StateTable, target: Target, at: nat, h: Hint)
    requires Anchor(args) == Some(target) && Compile(GrammarOf(target, table), args) == Rejected(at, h)
    ensures at < |args| && UpdateIt(args, table) == Aborted(args[at], h)
  {
  }

  /** A command whose first token is anchored names that token's entity. */
  lemma AnchorIsFirst(args: seq<string>, target: Target)
    requires |args| > 0 && AnchorOf(args[0]) == Some(target)
    ensures Anchor(args) == Some(target)
  {
  }

  /** Two tokens, the first setting a field and the second refused, stop at the second. */
  lemma SecondTokenRefused(g: seq<Field>, args: seq<string>, h: Hint)
    requires |args| == 2 && ReadToken(g, args[0]).Set? && ReadToken(g, args[1]) == Reject(h)
    ensures Compile(g, args) == Rejected(1, h)
  {
    var read := t => ReadToken(g, t);
    var v := ReadToken(g, args[0]);
    assert args[1..] == [args[1]];
    assert CompileWith(read, [args[1]], map[v.key := v.value]) == Rejected(0, h);
  }

  /** "JobId=" and a 32-bit number anchors a job, and the job grammar reads the number. */
  lemma JobTokenReads(n: nat)
    requires n < UINT32_RANGE
    ensures var job := "JobId=" + Decimal(n);
            && AnchorOf(job) == Some(JobTarget)
            && ReadToken(JobGrammar, job) == Set("JobId=", Num(n))
  {
    var job := "JobId=" + Decimal(n);
    var anchor := KeyField("JobId=", AsUint32);
    DecimalIsDigits(n);
    assert NUL !in Decimal(n);
    KeyClaimsOnlyItself(anchor, anchor, Decimal(n));
    FirstLetterRulesOut(KeyField("NodeName=", AsText), job);
    FirstLetterRulesOut(KeyField("PartitionName=", AsText), job);
    JobGrammarIsSound();
    NumberRoundTrip(n);
    assert JobGrammar[0] == anchor;
    SettingRoundTrip(JobGrammar, 0, Decimal(n), Num(n));
  }

  /** "NodeName=" and a name anchors a node, and the node grammar takes the name. */
  lemma NodeTokenReads(table: StateTable, name: string)
    requires NUL !in name
    ensures var node := "NodeName=" + name;
            && AnchorOf(node) == Some(NodeTarget)
            && ReadToken(NodeGrammar(table), node) == Set("NodeName=", Text(name))
  {
    var anchor := KeyField("NodeName=", AsText);
    KeyClaimsOnlyItself(anchor, anchor, name);
    NodeGrammarIsSound(table);
    assert NodeGrammar(table)[0] == anchor;
    SettingRoundTrip(NodeGrammar(table), 0, name, Text(name));
  }

  /** The node grammar refuses a job anchor. */
  lemma NodeGrammarRefusesJobId(table: StateTable, n: nat)
    ensures ReadToken(NodeGrammar(table), "JobId=" + Decimal(n)) == Reject(RequestAborted)
  {
    var g, job := NodeGrammar(table), "JobId=" + Decimal(n);
    assert g[0].key == "NodeName=" && g[1].key == "State=";
    FirstLetterRulesOut(g[0], job);
    FirstLetterRulesOut(g[1], job);
  }

  /** The job grammar refuses a node anchor, though "Name=" shares its first letter. */
  lemma JobGrammarRefusesNodeName(name: string)
    ensures ReadToken(JobGrammar, "NodeName=" + name) == Reject(RequestAborted)
  {
    var g, node := JobGrammar, "NodeName=" + name;
    forall j | 0 <= j < |g| && j != 9
      ensures !Claims(g[j], node)
    {
      FirstLetterRulesOut(g[j], node);
    }
    assert g[9].key == "Name=" && g[9].matchLen == 5;
    assert node[0] == 'N' && node[1] == 'o';
    assert !StrNCaseEqFrom(node, "Name=", 1, 5);
  }
}

=== FILE: display.dfy ===
/**
 Showing records from a snapshot: every record, or the first one a
 lookup selects. When a named lookup shows nothing the console says the
 record was not found if the snapshot had any records, and that there are
 none in the system if it had none; both messages are withheld in quiet
 mode. Node lookups start where the previous successful one ended, so a
 node list given in table order is found without rescanning the table.
 */
module Display {
  import opened CText
  import opened Output

  datatype JobRecord = JobRecord(jobId: nat, name: string, partition: string)
  datatype NodeRecord = NodeRecord(name: string, state: nat)
  datatype PartitionRecord = PartitionRecord(name: string, nodes: string)
  datatype StepRecord = StepRecord(jobId: nat, stepId: nat)
  datatype ConfigParam = ConfigParam(name: string, value: string)

  /** The index of the first element satisfying p. */
  function FirstMatch<T>(s: seq<T>, p: T -> bool): (r: Option<nat>)
    ensures r.Some? ==> r.value < |s| && p(s[r.value])
    ensures r.Some? ==> forall j :: 0 <= j < r.value ==> !p(s[j])
    ensures r.None? <==> forall j :: 0 <= j < |s| ==> !p(s[j])
  {
    if |s| == 0 then None
    else if p(s[0]) then Some(0)
    else match FirstMatch(s[1..], p)
      case None => None
      case Some(k) => Some(k + 1)
  }

  /**
   The report for a lookup that showed nothing: unless quiet, notFound when
   the snapshot had records and "none in the system" when it had none.
   */
  function NothingShown(kind: Entity, count: nat, v: Verbosity, notFound: Event): seq<Event> {
    if count > 0 then UnlessQuiet(v, notFound) else UnlessQuiet(v, NoneInSystem(kind))
  }

  /** Shows every record of a snapshot of count records. */
  function ShowEvery(kind: Entity, count: nat, v: Verbosity): (evs: seq<Event>)
    ensures count > 0 ==> |evs| == count
    ensures forall i :: 0 <= i < count ==> evs[i] == Shown(kind, i)
    ensures count == 0 ==> evs == UnlessQuiet(v, NoneInSystem(kind))
  {
    if count == 0 then UnlessQuiet(v, NoneInSystem(kind)) else seq(count, i requires 0 <= i < count => Shown(kind, i))
  }

  /**
   Shows the first record satisfying p; shows exactly that record when
   there is one, and reports notFound or "none in the system" when not.
   */
  function ShowFirst<T>(records: seq<T>, p: T -> bool, kind: Entity, v: Verbosity, notFound: Event): (evs: seq<Event>)
    requires !notFound.Shown?
    ensures |evs| <= 1
    ensures forall i :: 0 <= i < |records| ==>
              (evs == [Shown(kind, i)] <==> p(records[i]) && forall j :: 0 <= j < i ==> !p(records[j]))
    ensures (forall i :: 0 <= i < |records| ==> !p(records[i])) ==>
              evs == NothingShown(kind, |records|, v, notFound)
  {
    match FirstMatch(records, p)
    case Some(i) => [Shown(kind, i)]
    case None => NothingShown(kind, |records|, v, notFound)
  }

  /**
   "show jobs [id]": every job, or the first whose id equals the argument
   read as a 32-bit unsigned number.
   */
  function ShowJobs(jobs: seq<JobRecord>, arg: Option<string>, v: Verbosity): (evs: seq<Event>)
    ensures arg.None? ==> evs == ShowEvery(JobKind, |jobs|, v)
    ensures arg.Some? ==> |evs| <= 1
    ensures arg.Some? ==> forall i :: 0 <= i < |jobs| ==>
              (evs == [Shown(JobKind, i)] <==>
                 jobs[i].jobId == ParseUint32(arg.value) &&
                 forall j :: 0 <= j < i ==> jobs[j].jobId != ParseUint32(arg.value))
    ensures arg.Some? && (forall i :: 0 <= i < |jobs| ==> jobs[i].jobId != ParseUint32(arg.value)) ==>
              evs == NothingShown(JobKind, |jobs|, v, JobNotFound(ParseUint32(arg.value)))
  {
    match arg
    case None => ShowEvery(JobKind, |jobs|, v)
    case Some(a) =>
      var id := ParseUint32(a);
      ShowFirst(jobs, (job: JobRecord) => job.jobId == id, JobKind, v, JobNotFound(id))
  }

  /** "show partitions [name]": every partition, or the first with exactly that name. */
  function ShowPartitions(parts: seq<PartitionRecord>, arg: Option<string>, v: Verbosity): (evs: seq<Event>)
    ensures arg.None? ==> evs == ShowEvery(PartitionKind, |parts|, v)
    ensures arg.Some? ==> |evs| <= 1
    ensures arg.Some? ==> forall i :: 0 <= i < |parts| ==>
              (evs == [Shown(PartitionKind, i)] <==>
                 parts[i].name == arg.value && forall j :: 0 <= j < i ==> parts[j].name != arg.value)
    ensures arg.Some? && (forall i :: 0 <= i < |parts| ==> parts[i].name != arg.value) ==>
              evs == NothingShown(PartitionKind, |parts|, v, NotFound(PartitionKind, arg.value))
  {
    match arg
    case None => ShowEvery(PartitionKind, |parts|, v)
    case Some(name) =>
      ShowFirst(parts, (p: PartitionRecord) => p.name == name, PartitionKind, v, NotFound(PartitionKind, name))
  }

  /**
   "show steps [filter]": the manager has already applied the filter, so
   every step it returned is shown; with none, only "none in the system"
   can be reported.
   */
  function ShowSteps(steps: seq<StepRecord>, v: Verbosity): (evs: seq<Event>)
    ensures |steps| > 0 ==> |evs| == |steps|
    ensures forall i :: 0 <= i < |steps| ==> evs[i] == Shown(StepKind, i)
    ensures |steps| == 0 ==> evs == UnlessQuiet(v, NoneInSystem(StepKind))
  {
    ShowEvery(StepKind, |steps|, v)
  }

  /** "show config [name]": the whole configuration, whatever parameter was named. */
  function ShowConfig(params: seq<ConfigParam>): (evs: seq<Event>)
    ensures |evs| == |params|
    ensures forall i :: 0 <= i < |params| ==> evs[i] == Shown(ConfigKind, i)
  {
    seq(|params|, i requires 0 <= i < |params| => Shown(ConfigKind, i))
  }

  // ---------------------------------------------------------------------
  // The rotating node lookup

  /** The index probed at step j of a lookup in n nodes starting at cursor. */
  function Probe(n: nat, cursor: nat, j: nat): (i: nat)
    requires n > 0
    ensures i < n
  {
    (j + cursor) % n
  }

  /** The step at which a lookup in n nodes starting at cursor probes index i. */
  function StepOf(n: nat, cursor: nat, i: nat): (j: nat)
    requires n > 0
    ensures j < n
  {
    (i - cursor) % n
  }

  /** A non-zero multiple of a positive n is at least n away from 0. */
  lemma {:induction false} MultipleBound(n: int, q: int)
    requires n > 0
    ensures q >= 1 ==> n * q >= n
    ensures q <= -1 ==> n * q <= -n
    decreases if q < 0 then -q else q
  {
    if q > 1 {
      MultipleBound(n, q - 1);
      assert n * q == n * (q - 1) + n;
    } else if q < -1 {
      MultipleBound(n, q + 1);
      assert n * q == n * (q + 1) - n;
    }
  }

  /** Euclidean division has a unique remainder. */
  lemma ModUnique(x: int, n: int, d: int, r: int)
    requires n > 0 && 0 <= r < n && x == n * d + r
    ensures x % n == r
  {
    var q := x / n - d;
    assert n * q == r - x % n;
    MultipleBound(n, q);
  }

  /** Probing at the step StepOf names lands on the named index. */
  lemma ProbeOfStep(n: nat, cursor: nat, i: nat)
    requires n > 0 && i < n
    ensures Probe(n, cursor, StepOf(n, cursor, i)) == i
  {
    ModUnique(StepOf(n, cursor, i) + cursor, n, -((i - cursor) / n), i);
  }

  /** The step of a probed index is the step that probed it. */
  lemma StepOfProbe(n: nat, cursor: nat, j: nat)
    requires n > 0 && j < n
    ensures StepOf(n, cursor, Probe(n, cursor, j)) == j
  {
    ModUnique(Probe(n, cursor, j) - cursor, n, -((j + cursor) / n), j);
  }

  /**
   The probes of a lookup visit every index exactly once: StepOf inverts
   Probe on both sides.
   */
  lemma ProbesArePermutation(n: nat, cursor: nat)
    requires n > 0
    ensures forall i :: 0 <= i < n ==> Probe(n, cursor, StepOf(n, cursor, i)) == i
    ensures forall j :: 0 <= j < n ==> StepOf(n, cursor, Probe(n, cursor, j)) == j
  {
    forall i | 0 <= i < n
      ensures Probe(n, cursor, StepOf(n, cursor, i)) == i
    {
      ProbeOfStep(n, cursor, i);
    }
    forall j | 0 <= j < n
      ensures StepOf(n, cursor, Probe(n, cursor, j)) == j
    {
      StepOfProbe(n, cursor, j);
    }
  }

  function NodeNames(nodes: seq<NodeRecord>): seq<string> {
    seq(|nodes|, i requires 0 <= i < |nodes| => nodes[i].name)
  }

  /**
   The first step from j on at which the lookup for name, starting at
   cursor, probes a node of that name.
   */
  function CyclicFind(nodes: seq<NodeRecord>, name: string, cursor: nat, j: nat): (r: Option<nat>)
    requires |nodes| > 0 && j <= |nodes|
    ensures r.Some? ==> j <= r.value < |nodes| && nodes[Probe(|nodes|, cursor, r.value)].name == name
    ensures r.Some? ==> forall k :: j <= k < r.value ==> nodes[Probe(|nodes|, cursor, k)].name != name
    ensures r.None? ==> forall k :: j <= k < |nodes| ==> nodes[Probe(|nodes|, cursor, k)].name != name
    decreases |nodes| - j
  {
    if j == |nodes| then None
    else if nodes[Probe(|nodes|, cursor, j)].name == name then Some(j)
    else CyclicFind(nodes, name, cursor, j + 1)
  }

  /** A lookup that probes every step without a match proves the name absent. */
  lemma MissMeansAbsent(nodes: seq<NodeRecord>, name: string, cursor: nat)
    requires |nodes| > 0 && CyclicFind(nodes, name, cursor, 0).None?
    ensures name !in NodeNames(nodes)
  {
    forall i | 0 <= i < |nodes|
      ensures NodeNames(nodes)[i] != name
    {
      ProbeOfStep(|nodes|, cursor, i);
    }
  }

  /**
   The index of the node the rotating lookup finds: a node of that name
   exactly when there is one, and the first such node met going round the
   table from the cursor.
   */
  function NodeLookup(nodes: seq<NodeRecord>, name: string, cursor: nat): (r: Option<nat>)
    ensures r.Some? ==> r.value < |nodes| && nodes[r.value].name == name
    ensures r.None? <==> name !in NodeNames(nodes)
    ensures r.Some? ==> forall k :: 0 <= k < StepOf(|nodes|, cursor, r.value) ==>
                          nodes[Probe(|nodes|, cursor, k)].name != name
  {
    if |nodes| == 0 then None
    else
      match CyclicFind(nodes, name, cursor, 0)
      case Some(k) =>
        StepOfProbe(|nodes|, cursor, k);
        assert NodeNames(nodes)[Probe(|nodes|, cursor, k)] == name;
        Some(Probe(|nodes|, cursor, k))
      case None =>
        MissMeansAbsent(nodes, name, cursor);
        None
  }

  /** The lookup loop as the source writes it, agreeing with NodeLookup. */
  method FindNode(nodes: seq<NodeRecord>, name: string, cursor: nat) returns (found: Option<nat>)
    ensures found == NodeLookup(nodes, name, cursor)
    ensures found.Some? ==> found.value < |nodes| && nodes[found.value].name == name
    ensures found.None? <==> name !in NodeNames(nodes)
  {
    found := None;
    var n := |nodes|;
    var j := 0;
    while j < n
      invariant 0 <= j <= n
      invariant n > 0 ==> CyclicFind(nodes, name, cursor, j) == CyclicFind(nodes, name, cursor, 0)
    {
      var i := (j + cursor) % n;
      if nodes[i].name == name {
        found := Some(i);
        return;
      }
      j := j + 1;
    }
  }

  /** What showing one node leaves behind: the events and the lookup cursor. */
  datatype NodeView = NodeView(events: seq<Event>, cursor: nat)

  /**
   Shows every node, or the node of the given name. A successful named
   lookup moves the cursor to the node it found; a failed one leaves it.
   */
  function ShowNode(nodes: seq<NodeRecord>, name: Option<string>, cursor: nat, v: Verbosity): (r: NodeView)
    ensures name.None? ==> r == NodeView(ShowEvery(NodeKind, |nodes|, v), cursor)
    ensures name.Some? && name.value in NodeNames(nodes) ==>
              r.cursor < |nodes| && nodes[r.cursor].name == name.value && r.events == [Shown(NodeKind, r.cursor)]
    ensures name.Some? && name.value !in NodeNames(nodes) ==>
              r == NodeView(NothingShown(NodeKind, |nodes|, v, NotFound(NodeKind, name.value)), cursor)
  {
    match name
    case None => NodeView(ShowEvery(NodeKind, |nodes|, v), cursor)
    case Some(n) =>
      match NodeLookup(nodes, n, cursor)
      case Some(i) => NodeView([Shown(NodeKind, i)], i)
      case None => NodeView(NothingShown(NodeKind, |nodes|, v, NotFound(NodeKind, n)), cursor)
  }

  /** Repeating a successful named lookup finds the same node at the first probe. */
  lemma RepeatedLookupHitsAtCursor(nodes: seq<NodeRecord>, name: string, cursor: nat)
    requires name in NodeNames(nodes)
    ensures var first := ShowNode(nodes, Some(name), cursor, Normal);
            && NodeLookup(nodes, name, first.cursor) == Some(first.cursor)
            && StepOf(|nodes|, first.cursor, first.cursor) == 0
  {
    var c := ShowNode(nodes, Some(name), cursor, Normal).cursor;
    StepOfProbe(|nodes|, c, 0);
    ProbeOfStep(|nodes|, c, c);
  }

  /** Node names are unique within the table. */
  predicate UniqueNames(nodes: seq<NodeRecord>) {
    forall i, j :: 0 <= i < |nodes| && 0 <= j < |nodes| && nodes[i].name == nodes[j].name ==> i == j
  }

  /** The index of the first node of that name in table order. */
  function IndexOfName(nodes: seq<NodeRecord>, name: string): Option<nat> {
    FirstMatch(nodes, (n: NodeRecord) => n.name == name)
  }

  /** Shows the nodes of an expanded host list, one lookup per name, in order. */
  function ShowNodeNames(nodes: seq<NodeRecord>, names: seq<string>, cursor: nat, v: Verbosity): (r: NodeView)
    ensures r.cursor == cursor || r.cursor < |nodes|
    decreases |names|
  {
    if |names| == 0 then NodeView([], cursor)
    else
      var first := ShowNode(nodes, Some(names[0]), cursor, v);
      var rest := ShowNodeNames(nodes, names[1..], first.cursor, v);
      NodeView(first.events + rest.events, rest.cursor)
  }

  /**
   What a host list shows when every name is looked up in table order:
   the node of each name, or "not found" for a name the table lacks.
   */
  function ShownInTableOrder(nodes: seq<NodeRecord>, names: seq<string>): (evs: seq<Event>)
    ensures |evs| == |names|
  {
    seq(|names|, k requires 0 <= k < |names| =>
      match IndexOfName(nodes, names[k])
      case Some(i) => Shown(NodeKind, i)
      case None => NotFound(NodeKind, names[k]))
  }

  /**
   With unique node names, the rotating cursor is invisible: a host list
   whose names are all in the table shows, in order, the node of each name,
   wherever the cursor starts.
   */
  lemma {:induction false} NodeNamesShowInOrder(nodes: seq<NodeRecord>, names: seq<string>, cursor: nat, v: Verbosity)
    requires UniqueNames(nodes)
    requires forall k :: 0 <= k < |names| ==> names[k] in NodeNames(nodes)
    ensures ShowNodeNames(nodes, names, cursor, v).events == ShownInTableOrder(nodes, names)
    decreases |names|
  {
    if |names| > 0 {
      var first := ShowNode(nodes, Some(names[0]), cursor, v);
      NodeNamesShowInOrder(nodes, names[1..], first.cursor, v);
      assert names[0] in NodeNames(nodes);
      UniqueNameIsShown(nodes, names[0], cursor, v);
      TableOrderUnfolds(nodes, names);
    }
  }

  /** The expected events of a host list are those of its head followed by those of its tail. */
  lemma TableOrderUnfolds(nodes: seq<NodeRecord>, names: seq<string>)
    requires |names| > 0 && IndexOfName(nodes, names[0]).Some?
    ensures ShownInTableOrder(nodes, names)
            == [Shown(NodeKind, IndexOfName(nodes, names[0]).value)] + ShownInTableOrder(nodes, names[1..])
  {
    var rest := ShownInTableOrder(nodes, names[1..]);
    forall k | 1 <= k < |names|
      ensures ShownInTableOrder(nodes, names)[k] == rest[k - 1]
    {
      assert names[k] == names[1..][k - 1];
    }
  }

  /** With unique names, the node shown for a name in the table is its only node. */
  lemma UniqueNameIsShown(nodes: seq<NodeRecord>, name: string, cursor: nat, v: Verbosity)
    requires UniqueNames(nodes) && name in NodeNames(nodes)
    ensures IndexOfName(nodes, name).Some?
    ensures ShowNode(nodes, Some(name), cursor, v).events == [Shown(NodeKind, IndexOfName(nodes, name).value)]
  {
  }

  /** The outcome of expanding a host list expression such as "lx[1-4]". */
  datatype HostList = Expanded(names: seq<string>) | Unparsable | TooLarge | OtherFailure

  /**
   "show nodes [list]": every node, or the nodes the host list expands to;
   a list that cannot be expanded is reported unless quiet, and changes
   nothing else.
   */
  function ShowNodeList(nodes: seq<NodeRecord>, arg: Option<string>, expand: string -> HostList,
                        cursor: nat, v: Verbosity): (r: NodeView)
    ensures arg.None? ==> r == NodeView(ShowEvery(NodeKind, |nodes|, v), cursor)
    ensures arg.Some? && !expand(arg.value).Expanded? ==> r.cursor == cursor && |r.events| <= 1
    ensures arg.Some? && !expand(arg.value).Expanded? && v == Quiet ==> r.events == []
    ensures arg.Some? && expand(arg.value).Expanded? ==>
              r == ShowNodeNames(nodes, expand(arg.value).names, cursor, v)
  {
    match arg
    case None => ShowNode(nodes, None, cursor, v)
    case Some(list) =>
      match expand(list)
      case Expanded(names) => ShowNodeNames(nodes, names, cursor, v)
      case Unparsable => NodeView(UnlessQuiet(v, NodeListUnparsable(list)), cursor)
      case TooLarge => NodeView(UnlessQuiet(v, NodeListTooLarge(list)), cursor)
      case OtherFailure => NodeView(UnlessQuiet(v, NodeListError(list)), cursor)
  }
}

=== FILE: output.dfy ===
/**
 What the console says, as abstract events rather than text: the
 console's verbosity level, the entity kinds it shows, and one event per
 kind of message it prints.
 */
module Output {

  /** The session's verbosity, kept by the source as quiet=1, normal=0, verbose=-1. */
  datatype Verbosity = Quiet | Normal | Verbose {
    function Flag(): int {
      match this
      case Quiet => 1
      case Normal => 0
      case Verbose => -1
    }
  }

  datatype Entity = ConfigKind | JobKind | NodeKind | PartitionKind | StepKind

  /** The calls into the cluster manager whose failure the console reports. */
  datatype RemoteCall =
    | LoadConfig | LoadJobs | LoadNodes | LoadPartitions | LoadSteps
    | ShutdownCall | ReconfigureCall | PidToJobCall | UpdateCall

  /** The advice printed after a rejected update token. */
  datatype Hint =
    | RequestAborted
    | Acceptable(field: string, values: seq<string>)
    | ValidStates(names: seq<string>)

  datatype Event =
    | NoInput
    | TooManyArgs(keyword: string)
    | TooFewArgs(keyword: string)
    | InvalidKeyword(keyword: string)
    | InvalidEntity(entity: string)
    | Usage
    | VersionInfo
    | TooManyWords
    | RemoteError(call: RemoteCall)
    | JobOfPid(jobId: nat)
    | NoChangeNote(kind: Entity)
    | SnapshotInfo(kind: Entity, lastUpdate: int, count: nat)
    | Shown(kind: Entity, index: nat)
    | JobNotFound(jobId: nat)
    | NotFound(kind: Entity, name: string)
    | NoneInSystem(kind: Entity)
    | NodeListUnparsable(list: string)
    | NodeListTooLarge(list: string)
    | NodeListError(list: string)
    | ConfigUnreadable
    | Daemons(controller: bool, compute: bool)
    | NoValidEntity
    | InvalidInput(token: string, hint: Hint)
    | UnreadableInput(token: string)

  /** A message printed unless the session is quiet. */
  function UnlessQuiet(v: Verbosity, e: Event): seq<Event> {
    if v == Quiet then [] else [e]
  }

  /** A message printed only in verbose mode. */
  function IfVerbose(v: Verbosity, e: Event): seq<Event> {
    if v == Verbose then [e] else []
  }
}

=== FILE: snapshots.dfy ===
/**
 The console's per-kind snapshot caches. Each kind (configuration, jobs,
 nodes, partitions, job steps) keeps the last collection the manager
 sent, stamped with its update time. A refresh asks the manager for
 anything newer than that stamp (or for everything, at time 0, when
 nothing is cached): fresh data replaces the cache whole, "no change
 since" keeps the cached snapshot and counts as success, and any other
 failure leaves the cache as it was and shows nothing.

 The job-step cache is also keyed by the (job id, step id) filter of its
 last successful query: a different filter drops the snapshot and asks
 again from time 0.
 */
module Snapshots {
  import opened CText

  datatype Snapshot<T> = Snapshot(lastUpdate: int, records: seq<T>)

  /** The manager's answer to a load request. */
  datatype Reply<T> = Fresh(snapshot: Snapshot<T>) | NoChange | Failed

  /** The time a refresh asks about: 0 with nothing cached, else the cached stamp. */
  function Since<T>(cache: Option<Snapshot<T>>): int {
    match cache
    case None => 0
    case Some(s) => s.lastUpdate
  }

  /**
   The outcome of a refresh: the cache afterwards, whether the caller may
   display it, and whether the cached snapshot was reused because the
   manager said nothing changed since its stamp.
   */
  datatype Refreshed<T> = Refreshed(cache: Option<Snapshot<T>>, ok: bool, reused: bool)

  /**
   One refresh, given the manager's reply to the query for Since(cache).
   A "no change" reply counts as success only when there is a cached
   snapshot to fall back on; without one it is an error like any other.
   */
  function Refresh<T>(cache: Option<Snapshot<T>>, reply: Reply<T>): (r: Refreshed<T>)
    ensures r.ok <==> reply.Fresh? || (reply.NoChange? && cache.Some?)
    ensures r.ok ==> r.cache.Some?
    ensures reply.Fresh? ==> r.cache == Some(reply.snapshot)
    ensures !reply.Fresh? ==> r.cache == cache
    ensures r.reused <==> r.ok && reply.NoChange?
  {
    match reply
    case Fresh(s) => Refreshed(Some(s), true, false)
    case NoChange => Refreshed(cache, cache.Some?, cache.Some?)
    case Failed => Refreshed(cache, false, false)
  }

  /** The cache after a series of refreshes answered by replies, in order. */
  function RefreshAll<T>(cache: Option<Snapshot<T>>, replies: seq<Reply<T>>): Option<Snapshot<T>>
    decreases |replies|
  {
    if |replies| == 0 then cache
    else RefreshAll(Refresh(cache, replies[0]).cache, replies[1..])
  }

  /** The last snapshot the manager sent in a series of replies, if any. */
  function LastFresh<T>(replies: seq<Reply<T>>): Option<Snapshot<T>>
    decreases |replies|
  {
    if |replies| == 0 then None
    else
      var later := LastFresh(replies[1..]);
      if later.Some? then later
      else if replies[0].Fresh? then Some(replies[0].snapshot)
      else None
  }

  /**
   Snapshots are only ever replaced whole: after any series of refreshes
   the cache holds the most recent snapshot the manager sent, or the
   original cache when it sent none.
   */
  lemma {:induction false} CacheHoldsLastFresh<T>(cache: Option<Snapshot<T>>, replies: seq<Reply<T>>)
    ensures RefreshAll(cache, replies) == (if LastFresh(replies).Some? then LastFresh(replies) else cache)
    decreases |replies|
  {
    if |replies| > 0 {
      CacheHoldsLastFresh(Refresh(cache, replies[0]).cache, replies[1..]);
    }
  }

  // ---------------------------------------------------------------------
  // The job-step cache

  /** A job-step filter: "a.b" is job a, step b; "a" is job a, step 0. */
  datatype StepFilter = StepFilter(jobId: nat, stepId: nat)

  /** The cached step snapshot and the filter of the query that produced it. */
  datatype StepCache<T> = StepCache(cache: Option<Snapshot<T>>, filter: StepFilter)

  /**
   Parses a step filter argument: the job id is the leading number, and the
   step id the number after a '.' that immediately follows it; both are
   truncated to 32 bits. No argument is job 0, step 0.
   */
  function ParseStepFilter(arg: Option<string>): StepFilter {
    match arg
    case None => StepFilter(0, 0)
    case Some(s) =>
      var job := StrToL(s);
      var step := if |job.rest| > 0 && job.rest[0] == '.' then ParseUint32(job.rest[1..]) else 0;
      StepFilter(ToUint32(job.value), step)
  }

  /** "a.b" names job a and step b; "a" alone names job a and step 0. */
  lemma ParseStepFilterOfIds(a: nat, b: nat)
    requires a < UINT32_RANGE && b < UINT32_RANGE
    ensures ParseStepFilter(Some(Decimal(a) + "." + Decimal(b))) == StepFilter(a, b)
    ensures ParseStepFilter(Some(Decimal(a))) == StepFilter(a, 0)
  {
    DecimalRoundTrip(a, "." + Decimal(b));
    assert Decimal(a) + "." + Decimal(b) == Decimal(a) + ("." + Decimal(b));
    assert ("." + Decimal(b))[1..] == Decimal(b);
    ParseUint32OfDecimal(b);
    DecimalRoundTrip(a, []);
    assert Decimal(a) + [] == Decimal(a);
  }

  /**
   The time the step query asks about: the cached stamp only when a
   snapshot is cached and the filter is the one it was fetched with.
   */
  function StepSince<T>(sc: StepCache<T>, f: StepFilter): int {
    if sc.cache.Some? && sc.filter == f then sc.cache.value.lastUpdate else 0
  }

  datatype StepRefreshed<T> = StepRefreshed(steps: StepCache<T>, ok: bool, reused: bool)

  /**
   One refresh of the step cache for filter f, given the manager's reply
   to the query for StepSince(sc, f). With a different filter the old
   snapshot is dropped before the full query, so a failure of that query
   leaves nothing cached. The filter is remembered only on success.
   */
  function RefreshSteps<T>(sc: StepCache<T>, f: StepFilter, reply: Reply<T>): (r: StepRefreshed<T>)
    ensures r.ok ==> r.steps.filter == f && r.steps.cache.Some?
    ensures !r.ok ==> r.steps.filter == sc.filter
    ensures reply.Fresh? ==> r.ok && r.steps.cache == Some(reply.snapshot)
    ensures reply.NoChange? ==> (r.ok <==> sc.cache.Some? && sc.filter == f)
    ensures r.reused ==> r.steps.cache == sc.cache && sc.filter == f
    ensures !r.ok && sc.filter == f ==> r.steps.cache == sc.cache
    ensures !r.ok && sc.filter != f ==> r.steps.cache.None?
    ensures reply.Failed? ==> !r.ok
    ensures r.reused <==> r.ok && reply.NoChange?
  {
    var delta := sc.cache.Some? && sc.filter == f;
    var refreshed := Refresh(if delta then sc.cache else None, reply);
    StepRefreshed(StepCache(refreshed.cache, if refreshed.ok then f else sc.filter),
                  refreshed.ok, refreshed.reused)
  }

  /**
   A failed switch to another filter forces the next step query, whatever
   its filter, to be a full query from time 0.
   */
  lemma FailedSwitchForcesFullQuery<T>(sc: StepCache<T>, f: StepFilter, next: StepFilter)
    requires sc.filter != f
    ensures StepSince(RefreshSteps(sc, f, Failed).steps, next) == 0
  {
  }

  // ---------------------------------------------------------------------
  // The step cache's memory as the source manages it

  /**
   The step cache's pointer as the source keeps it: empty, pointing at a
   live snapshot, or still pointing at a snapshot already given back.
   */
  datatype Cell<T> = Empty | Live(snapshot: Snapshot<T>) | Released(snapshot: Snapshot<T>)

  datatype StepCell<T> = StepCell(cell: Cell<T>, filter: StepFilter)

  /** A refresh as written: the new state, success, and whether it touched released memory. */
  datatype AsWritten<T> = AsWritten(state: StepCell<T>, ok: bool, touchesReleased: bool)

  /**
   The step refresh as written: on a filter change the old snapshot is
   given back but the pointer to it is kept, so when the full query then
   fails the pointer is left dangling. A later call with the remembered
   filter reads the released snapshot's stamp, and on "no change" shows
   the released snapshot itself.
   */
  function RefreshStepsAsWritten<T>(st: StepCell<T>, f: StepFilter, reply: Reply<T>): (r: AsWritten<T>)
    ensures r.touchesReleased <==> st.cell.Released?
    ensures st.cell.Live? && st.filter != f && !reply.Fresh? ==>
              !r.ok && r.state == StepCell(Released(st.cell.snapshot), st.filter)
    ensures st.cell.Released? && st.filter == f && reply.NoChange? ==>
              r.ok && r.state.cell == Live(st.cell.snapshot)
    ensures reply.Fresh? ==> r.ok && r.state == StepCell(Live(reply.snapshot), f)
  {
    var touches := st.cell.Released?;
    if !st.cell.Empty? && st.filter == f then
      match reply
      case Fresh(s) => AsWritten(StepCell(Live(s), f), true, touches)
      case NoChange => AsWritten(StepCell(Live(st.cell.snapshot), f), true, touches)
      case Failed => AsWritten(st, false, touches)
    else
      var given := match st.cell
        case Empty => Empty
        case Live(s) => Released(s)
        case Released(s) => Released(s);
      match reply
      case Fresh(s) => AsWritten(StepCell(Live(s), f), true, touches)
      case _ => AsWritten(StepCell(given, st.filter), false, touches)
  }

  /** The cache the pointer stands for once released snapshots count as gone. */
  function Alive<T>(c: Cell<T>): Option<Snapshot<T>> {
    match c
    case Live(s) => Some(s)
    case _ => None
  }

  /**
   The defect in two calls: "show step 1.0" succeeds, "show step 2.0" then
   fails, and the next "show step 1.0" makes a delta query from, and on "no
   change" displays, the snapshot the failed call gave back. In the
   corrected cache the failure empties the cache, and the next query for
   1.0 is a full one from time 0.
   */
  lemma StepCacheUseAfterRelease(s: Snapshot<nat>)
    ensures var first := StepCell(Live(s), StepFilter(1, 0));
            var failed := RefreshStepsAsWritten(first, StepFilter(2, 0), Failed);
            var again := RefreshStepsAsWritten(failed.state, StepFilter(1, 0), NoChange);
            && !failed.ok && failed.state.cell == Released(s)
            && again.touchesReleased && again.ok && again.state.cell == Live(s)
    ensures var failed := RefreshSteps(StepCache(Some(s), StepFilter(1, 0)), StepFilter(2, 0), Failed);
            && failed.steps.cache == None
            && StepSince(failed.steps, StepFilter(1, 0)) == 0
            && !RefreshSteps(failed.steps, StepFilter(1, 0), NoChange).ok
  {
  }

  /**
   The correction changes nothing until a snapshot is released: from a
   state that points at no released snapshot, the written refresh and the
   corrected one agree on success, on the filter and on the live cache.
   */
  lemma CorrectionOnlyDropsReleased<T>(st: StepCell<T>, f: StepFilter, reply: Reply<T>)
    requires !st.cell.Released?
    ensures var written := RefreshStepsAsWritten(st, f, reply);
            var fixed := RefreshSteps(StepCache(Alive(st.cell), st.filter), f, reply);
            && !written.touchesReleased
            && written.ok == fixed.ok
            && written.state.filter == fixed.steps.filter
            && Alive(written.state.cell) == fixed.steps.cache
  {
  }
}

=== FILE: tokenizer.dfy ===
/**
 The console's line tokenizer. A line is split in place into its
 whitespace-separated words: each word is taken where it stands and the
 character that ends it is overwritten with a NUL. At most 128 words are
 accepted; meeting a 129th is the "argument list too long" error. The
 line "!!" re-tokenizes the stored previous line, which is the very
 buffer the earlier pass wrote its NULs into.
 */
module Tokenizer {
  import opened CText

  const MAX_INPUT_FIELDS: nat := 128

  /** errno E2BIG, "argument list too long" */
  const E2BIG: int := 7

  /** The line that asks for the previous line again. */
  const REPEAT: string := "!!"

  /** A character that ends a word: white space or a NUL. */
  predicate IsDelim(c: char) {
    c == NUL || IsSpace(c)
  }

  predicate Solid(w: string) {
    forall k :: 0 <= k < |w| ==> !IsDelim(w[k])
  }

  /** Length of the leading run of word characters. */
  function RunLen(s: string): (n: nat)
    ensures n <= |s|
  {
    if |s| == 0 || IsDelim(s[0]) then 0 else 1 + RunLen(s[1..])
  }

  /**
   The reference meaning of tokenizing: the maximal runs of characters
   that are neither white space nor NUL, from left to right.
   */
  function Words(s: string): seq<string>
    decreases |s|
  {
    if |s| == 0 then []
    else if IsDelim(s[0]) then Words(s[1..])
    else
      var n := 1 + RunLen(s[1..]);
      [s[..n]] + Words(s[n..])
  }

  // ---------------------------------------------------------------------
  // The scan as the console performs it

  /**
   The inner loop: from j, the first position that holds a delimiter, or
   the end of the buffer.
   */
  function WordEnd(buf: string, j: nat): (e: nat)
    requires j <= |buf|
    ensures j <= e <= |buf|
    ensures forall k :: j <= k < e ==> !IsDelim(buf[k])
    ensures e < |buf| ==> IsDelim(buf[e])
    decreases |buf| - j
  {
    if j == |buf| || IsDelim(buf[j]) then j else WordEnd(buf, j + 1)
  }

  /** What a scan yields: a status code, the words, and the buffer as it was left. */
  datatype Scan = Scan(code: int, tokens: seq<string>, buffer: string)

  /**
   The outer loop from position i, with the words taken so far. A NUL met
   by the outer loop ends the line; a word start when 128 words are already
   taken ends the scan with E2BIG; otherwise the word runs to its end, which
   is overwritten with a NUL when it lies inside the buffer.
   */
  function ScanFrom(buf: string, i: nat, tokens: seq<string>): (r: Scan)
    ensures |r.buffer| == |buf|
    ensures r.code == 0 || r.code == E2BIG
    ensures |tokens| <= MAX_INPUT_FIELDS ==> |r.tokens| <= MAX_INPUT_FIELDS
    decreases |buf| - i
  {
    if i >= |buf| || buf[i] == NUL then Scan(0, tokens, buf)
    else if IsSpace(buf[i]) then ScanFrom(buf, i + 1, tokens)
    else if |tokens| + 1 > MAX_INPUT_FIELDS then Scan(E2BIG, tokens, buf)
    else
      var e := WordEnd(buf, i + 1);
      var marked := if e < |buf| then buf[e := NUL] else buf;
      ScanFrom(marked, e + 1, tokens + [buf[i..e]])
  }

  /** The result of reading one command line. */
  datatype Command = Command(code: int, words: seq<string>, stored: string)

  /**
   Reads one line (None at end of input, which yields no words). The line
   "!!" scans the stored buffer again; any other line becomes the stored
   buffer, scanned in place.
   */
  function GetCommand(stored: string, line: Option<string>): (r: Command)
    ensures r.code == 0 || r.code == E2BIG
    ensures |r.words| <= MAX_INPUT_FIELDS
  {
    match line
    case None => Command(0, [], stored)
    case Some(l) =>
      var scan := ScanFrom(if l == REPEAT then stored else l, 0, []);
      Command(scan.code, scan.tokens, scan.buffer)
  }

  // ---------------------------------------------------------------------
  // The in-place writes

  /** b is a with some delimiters replaced by NUL. */
  predicate Blanked(a: string, b: string) {
    |a| == |b| && forall k :: 0 <= k < |a| ==> b[k] == a[k] || (IsDelim(a[k]) && b[k] == NUL)
  }

  /**
   Scanning from i never touches the buffer before i, and elsewhere only
   turns delimiters into NULs.
   */
  lemma {:induction false} ScanWritesOnlyNuls(buf: string, i: nat, tokens: seq<string>)
    ensures var r := ScanFrom(buf, i, tokens);
            Blanked(buf, r.buffer) && forall k :: 0 <= k < i && k < |buf| ==> r.buffer[k] == buf[k]
    decreases |buf| - i
  {
    if i >= |buf| || buf[i] == NUL {
    } else if IsSpace(buf[i]) {
      ScanWritesOnlyNuls(buf, i + 1, tokens);
    } else if |tokens| + 1 > MAX_INPUT_FIELDS {
    } else {
      var e := WordEnd(buf, i + 1);
      var marked := if e < |buf| then buf[e := NUL] else buf;
      ScanWritesOnlyNuls(marked, e + 1, tokens + [buf[i..e]]);
    }
  }

  /** The inner loop finds the same end in any buffer that agrees up to that end. */
  lemma {:induction false} WordEndStable(a: string, b: string, j: nat)
    requires j <= |a| == |b|
    requires var e := WordEnd(a, j);
             (forall k :: j <= k < e ==> b[k] == a[k]) && (e < |b| ==> IsDelim(b[e]))
    ensures WordEnd(b, j) == WordEnd(a, j)
    decreases |a| - j
  {
    if j < |a| && !IsDelim(a[j]) {
      WordEndStable(a, b, j + 1);
    }
  }

  /**
   Scanning a buffer a second time, from the same point and with the same
   words already taken, gives exactly the first result: the same code, the
   same words, and a buffer the second pass leaves as it found it.
   */
  lemma {:induction false} RescanIsIdentical(buf: string, i: nat, tokens: seq<string>)
    ensures var r := ScanFrom(buf, i, tokens);
            ScanFrom(r.buffer, i, tokens) == r
    decreases |buf| - i, 1
  {
    if i >= |buf| || buf[i] == NUL {
    } else if IsSpace(buf[i]) {
      RescanIsIdentical(buf, i + 1, tokens);
      ScanWritesOnlyNuls(buf, i + 1, tokens);
    } else if |tokens| + 1 > MAX_INPUT_FIELDS {
    } else {
      RescanWord(buf, i, tokens);
    }
  }

  /**
   The step of RescanIsIdentical at a word start: the second pass finds
   the same word end, since the first pass left the word and its end in
   place, and so continues exactly as the first pass did.
   */
  lemma {:induction false} RescanWord(buf: string, i: nat, tokens: seq<string>)
    requires i < |buf| && !IsDelim(buf[i]) && |tokens| + 1 <= MAX_INPUT_FIELDS
    ensures var r := ScanFrom(buf, i, tokens);
            ScanFrom(r.buffer, i, tokens) == r
    decreases |buf| - i, 0
  {
    var e := WordEnd(buf, i + 1);
    var marked := if e < |buf| then buf[e := NUL] else buf;
    var more := tokens + [buf[i..e]];
    var r := ScanFrom(marked, e + 1, more);
    RescanIsIdentical(marked, e + 1, more);
    ScanWritesOnlyNuls(marked, e + 1, more);
    ScanAtWord(buf, i, tokens);
    SameWordAgain(buf, marked, r.buffer, i, e);
    ScanPastMarkedWord(r.buffer, i, tokens, e, buf[i..e]);
  }

  /**
   The scan at a word start whose end already carries its NUL takes the
   word and goes on past the end, leaving the buffer as it is.
   */
  lemma ScanPastMarkedWord(b: string, i: nat, tokens: seq<string>, e: nat, w: string)
    requires i < |b| && !IsDelim(b[i]) && |tokens| + 1 <= MAX_INPUT_FIELDS
    requires e == WordEnd(b, i + 1) && b[i..e] == w
    requires (if e < |b| then b[e := NUL] else b) == b
    ensures ScanFrom(b, i, tokens) == ScanFrom(b, e + 1, tokens + [w])
  {
    ScanAtWord(b, i, tokens);
  }

  /** The scan at a word start takes the word and goes on past its end. */
  lemma ScanAtWord(buf: string, i: nat, tokens: seq<string>)
    requires i < |buf| && !IsDelim(buf[i]) && |tokens| + 1 <= MAX_INPUT_FIELDS
    ensures var e := WordEnd(buf, i + 1);
            ScanFrom(buf, i, tokens)
            == ScanFrom(if e < |buf| then buf[e := NUL] else buf, e + 1, tokens + [buf[i..e]])
  {
  }

  /**
   A buffer that agrees with the marked one up to the word's end holds the
   same word at i, ended at the same place, and already carries its NUL.
   */
  lemma SameWordAgain(buf: string, marked: string, b: string, i: nat, e: nat)
    requires i < |buf| && !IsDelim(buf[i])
    requires e == WordEnd(buf, i + 1)
    requires marked == if e < |buf| then buf[e := NUL] else buf
    requires |b| == |buf|
    requires forall k :: 0 <= k < e + 1 && k < |b| ==> b[k] == marked[k]
    ensures !IsDelim(b[i]) && b[i] == buf[i]
    ensures WordEnd(b, i + 1) == e
    ensures b[i..e] == buf[i..e]
    ensures (if e < |b| then b[e := NUL] else b) == b
  {
    assert b[i] == marked[i];
    assert forall k :: i + 1 <= k < e ==> b[k] == buf[k] by {
      forall k | i + 1 <= k < e ensures b[k] == buf[k] {
        assert b[k] == marked[k];
      }
    }
    if e < |b| {
      assert b[e] == marked[e];
    }
    WordEndStable(buf, b, i + 1);
    assert forall k :: 0 <= k < e - i ==> b[i..e][k] == buf[i..e][k] by {
      forall k | 0 <= k < e - i ensures b[i..e][k] == buf[i..e][k] {
        assert b[i + k] == marked[i + k];
      }
    }
  }

  /**
   "!!" replays the previous line: it yields the same status and the same
   words as the line did when first entered, despite the NULs that first
   pass wrote into the stored buffer, and it leaves that buffer stored
   exactly as it was.
   */
  lemma RepeatReplaysLastLine(stored: string, line: string)
    requires line != REPEAT
    ensures var first := GetCommand(stored, Some(line));
            GetCommand(first.stored, Some(REPEAT)) == first
  {
    RescanIsIdentical(line, 0, []);
  }

  // ---------------------------------------------------------------------
  // The scan yields the words

  /** Every NUL in the buffer ends a word: it directly follows a word character. */
  predicate NulsEndWords(buf: string) {
    forall k :: 0 <= k < |buf| && buf[k] == NUL ==> 0 < k && !IsDelim(buf[k - 1])
  }

  lemma {:induction false} WordEndIsRun(buf: string, j: nat)
    requires j <= |buf|
    ensures WordEnd(buf, j) == j + RunLen(buf[j..])
    decreases |buf| - j
  {
    if j < |buf| && !IsDelim(buf[j]) {
      WordEndIsRun(buf, j + 1);
      assert buf[j..][1..] == buf[j + 1..];
    }
  }

  /** The words from a word start: the word itself, then the words after its end. */
  lemma WordsAtWordStart(buf: string, i: nat)
    requires i < |buf| && !IsDelim(buf[i])
    ensures var e := WordEnd(buf, i + 1);
            Words(buf[i..]) == [buf[i..e]] + Words(buf[e..])
  {
    var e := WordEnd(buf, i + 1);
    WordEndIsRun(buf, i + 1);
    assert buf[i..][1..] == buf[i + 1..];
    assert buf[i..][e - i..] == buf[e..];
    assert buf[i..][..e - i] == buf[i..e];
  }

  /** A delimiter in front changes nothing about the words. */
  lemma WordsAfterDelim(buf: string, i: nat)
    requires i < |buf| && IsDelim(buf[i])
    ensures Words(buf[i..]) == Words(buf[i + 1..])
  {
    assert buf[i..][1..] == buf[i + 1..];
  }

  /** Writing the NUL that ends a word keeps every NUL ending a word. */
  lemma MarkKeepsNulsEndingWords(buf: string, i: nat, e: nat)
    requires NulsEndWords(buf)
    requires i < e < |buf|
    requires forall k :: i <= k < e ==> !IsDelim(buf[k])
    requires IsDelim(buf[e])
    ensures NulsEndWords(buf[e := NUL])
  {
    var marked := buf[e := NUL];
    forall k | 0 <= k < |marked| && marked[k] == NUL
      ensures 0 < k && !IsDelim(marked[k - 1])
    {
      if k != e {
        assert buf[k] == NUL;
      }
    }
  }

  /** The status and words a scan should yield for the words it meets. */
  function Capped(all: seq<string>): (int, seq<string>) {
    if |all| <= MAX_INPUT_FIELDS then (0, all) else (E2BIG, all[..MAX_INPUT_FIELDS])
  }

  /**
   On a buffer whose NULs all end words, the scan from a word boundary
   takes the words of the rest of the buffer, as many as fit in 128, and
   reports E2BIG exactly when they do not all fit.
   */
  lemma {:induction false} ScanTakesWords(buf: string, i: nat, tokens: seq<string>)
    requires NulsEndWords(buf)
    requires |tokens| <= MAX_INPUT_FIELDS
    requires i <= |buf| && (i == 0 || IsDelim(buf[i - 1]))
    ensures var r := ScanFrom(buf, i, tokens);
            (r.code, r.tokens) == Capped(tokens + Words(buf[i..]))
    decreases |buf| - i, 1
  {
    if i == |buf| {
      ScanAtEnd(buf, tokens);
    } else if IsSpace(buf[i]) {
      ScanTakesWords(buf, i + 1, tokens);
      SpaceThenRest(buf, i, tokens, ScanFrom(buf, i + 1, tokens));
    } else {
      assert buf[i] != NUL;
      ScanTakesWordAt(buf, i, tokens);
    }
  }

  /** At the end of the buffer the scan takes nothing more. */
  lemma ScanAtEnd(buf: string, tokens: seq<string>)
    requires |tokens| <= MAX_INPUT_FIELDS
    ensures var r := ScanFrom(buf, |buf|, tokens);
            (r.code, r.tokens) == Capped(tokens + Words(buf[|buf|..]))
  {
    assert buf[|buf|..] == [];
    assert tokens + [] == tokens;
  }

  /** White space at i is skipped: the scan goes on from i + 1, with the same words ahead. */
  lemma SpaceThenRest(buf: string, i: nat, tokens: seq<string>, r: Scan)
    requires i < |buf| && IsSpace(buf[i])
    requires r == ScanFrom(buf, i + 1, tokens)
    requires (r.code, r.tokens) == Capped(tokens + Words(buf[i + 1..]))
    ensures var s := ScanFrom(buf, i, tokens);
            (s.code, s.tokens) == Capped(tokens + Words(buf[i..]))
  {
    WordsAfterDelim(buf, i);
  }

  /** The step of ScanTakesWords where a word starts at i. */
  lemma {:induction false} ScanTakesWordAt(buf: string, i: nat, tokens: seq<string>)
    requires NulsEndWords(buf)
    requires |tokens| <= MAX_INPUT_FIELDS
    requires i < |buf| && !IsDelim(buf[i])
    ensures var r := ScanFrom(buf, i, tokens);
            (r.code, r.tokens) == Capped(tokens + Words(buf[i..]))
    decreases |buf| - i, 0
  {
    var e := WordEnd(buf, i + 1);
    if |tokens| + 1 > MAX_INPUT_FIELDS || e == |buf| {
      ScanLastWordAt(buf, i, tokens);
    } else {
      var marked := buf[e := NUL];
      var more := tokens + [buf[i..e]];
      MarkKeepsNulsEndingWords(buf, i, e);
      ScanTakesWords(marked, e + 1, more);
      var r := ScanFrom(marked, e + 1, more);
      assert e < |buf|;
      assert (r.code, r.tokens) == Capped(more + Words(marked[e + 1..]));
      assert more + Words(marked[e + 1..]) == tokens + [buf[i..e]] + Words(marked[e + 1..]);
      WordThenRest(buf, i, tokens, e, marked, r);
    }
  }

  /**
   The scan at a word start that takes no further word: either no room is
   left for it, or it runs to the end of the buffer.
   */
  lemma ScanLastWordAt(buf: string, i: nat, tokens: seq<string>)
    requires |tokens| <= MAX_INPUT_FIELDS
    requires i < |buf| && !IsDelim(buf[i])
    requires |tokens| + 1 > MAX_INPUT_FIELDS || WordEnd(buf, i + 1) == |buf|
    ensures var r := ScanFrom(buf, i, tokens);
            (r.code, r.tokens) == Capped(tokens + Words(buf[i..]))
  {
    var e := WordEnd(buf, i + 1);
    var more := tokens + [buf[i..e]];
    assert tokens + Words(buf[i..]) == more + Words(buf[e..]) by {
      WordsAtWordStart(buf, i);
    }
    if |tokens| + 1 > MAX_INPUT_FIELDS {
      assert (tokens + Words(buf[i..]))[..MAX_INPUT_FIELDS] == tokens;
    } else {
      assert buf[e..] == [];
      assert more + [] == more;
      ScanAtWord(buf, i, tokens);
    }
  }

  /**
   The scan at a word start with room for the word and more buffer after
   it: the word, then whatever the scan past the word's NUL yields.
   */
  lemma WordThenRest(buf: string, i: nat, tokens: seq<string>, e: nat, marked: string, r: Scan)
    requires |tokens| + 1 <= MAX_INPUT_FIELDS
    requires i < |buf| && !IsDelim(buf[i])
    requires e == WordEnd(buf, i + 1) && e < |buf| && marked == buf[e := NUL]
    requires r == ScanFrom(marked, e + 1, tokens + [buf[i..e]])
    requires (r.code, r.tokens) == Capped(tokens + [buf[i..e]] + Words(marked[e + 1..]))
    ensures var s := ScanFrom(buf, i, tokens);
            (s.code, s.tokens) == Capped(tokens + Words(buf[i..]))
  {
    WordsPastMark(buf, i, e, marked, tokens);
    ScanAtWord(buf, i, tokens);
  }

  /** The words from a word start: the word, then the words past the NUL written at its end. */
  lemma WordsPastMark(buf: string, i: nat, e: nat, marked: string, tokens: seq<string>)
    requires i < |buf| && !IsDelim(buf[i])
    requires e == WordEnd(buf, i + 1) && e < |buf| && marked == buf[e := NUL]
    ensures tokens + Words(buf[i..]) == tokens + [buf[i..e]] + Words(marked[e + 1..])
  {
    WordsAtWordStart(buf, i);
    WordsAfterDelim(buf, e);
    assert marked[e + 1..] == buf[e + 1..];
    assert tokens + ([buf[i..e]] + Words(marked[e + 1..]))
        == tokens + [buf[i..e]] + Words(marked[e + 1..]);
  }

  /**
   A line (which, coming from the terminal, holds no NUL) yields its words
   when it has at most 128 of them, and otherwise E2BIG with the first 128.
   The stored buffer becomes that line with some white space overwritten
   by NULs, whatever was stored before.
   */
  lemma LineYieldsWords(stored: string, line: string)
    requires NUL !in line && line != REPEAT
    ensures var r := GetCommand(stored, Some(line));
            && (|Words(line)| <= MAX_INPUT_FIELDS ==> r.code == 0 && r.words == Words(line))
            && (|Words(line)| > MAX_INPUT_FIELDS ==>
                  r.code == E2BIG && r.words == Words(line)[..MAX_INPUT_FIELDS])
            && Blanked(line, r.stored)
  {
    assert line[0..] == line;
    assert [] + Words(line) == Words(line);
    ScanTakesWords(line, 0, []);
    ScanWritesOnlyNuls(line, 0, []);
  }

  /** "!!" before any line has been read yields no words and stores nothing. */
  lemma RepeatWithoutHistory()
    ensures GetCommand([], Some(REPEAT)) == Command(0, [], [])
  {
  }

  // ---------------------------------------------------------------------
  // The words of a line

  /** Every word is non-empty and holds neither white space nor NUL. */
  lemma {:induction false} WordsAreSolid(s: string)
    ensures forall k :: 0 <= k < |Words(s)| ==> |Words(s)[k]| > 0 && Solid(Words(s)[k])
    decreases |s|
  {
    if |s| > 0 {
      if IsDelim(s[0]) {
        WordsAreSolid(s[1..]);
      } else {
        var n := 1 + RunLen(s[1..]);
        WordEndIsRun(s, 1);
        assert s[1..][0..] == s[1..];
        WordsAreSolid(s[n..]);
      }
    }
  }

  /** The words joined by single blanks. */
  function Join(ws: seq<string>): string {
    if |ws| == 0 then []
    else if |ws| == 1 then ws[0]
    else ws[0] + " " + Join(ws[1..])
  }

  lemma {:induction false} RunLenOfSolid(w: string, rest: string)
    requires Solid(w)
    requires |rest| == 0 || IsDelim(rest[0])
    ensures RunLen(w + rest) == |w|
    decreases |w|
  {
    if |w| == 0 {
      assert w + rest == rest;
    } else {
      assert (w + rest)[1..] == w[1..] + rest;
      RunLenOfSolid(w[1..], rest);
    }
  }

  lemma WordsOfSolidPrefix(w: string, rest: string)
    requires |w| > 0 && Solid(w)
    requires |rest| == 0 || IsDelim(rest[0])
    ensures Words(w + rest) == [w] + Words(rest)
  {
    var s := w + rest;
    assert s[1..] == w[1..] + rest;
    RunLenOfSolid(w[1..], rest);
    assert s[..|w|] == w;
    assert s[|w|..] == rest;
  }

  /**
   Tokenizing undoes joining: words that are non-empty and free of white
   space and NUL, joined by blanks, split back into exactly those words.
   */
  lemma {:induction false} WordsOfJoin(ws: seq<string>)
    requires forall k :: 0 <= k < |ws| ==> |ws[k]| > 0 && Solid(ws[k])
    ensures Words(Join(ws)) == ws
    decreases |ws|
  {
    if |ws| == 1 {
      WordsOfSolidPrefix(ws[0], []);
      assert ws[0] + [] == ws[0];
    } else if |ws| > 1 {
      var tail := " " + Join(ws[1..]);
      assert Join(ws) == ws[0] + tail;
      WordsOfSolidPrefix(ws[0], tail);
      assert tail[1..] == Join(ws[1..]);
      WordsOfJoin(ws[1..]);
      assert ws == [ws[0]] + ws[1..];
    }
  }
}
